=== FILE: README.md ===
# expectations.js in Dafny

A model of the assertion library expectations.js: the deep-equality
comparator `eq`, the diagnostic renderer `formatValue`, the message builder
`generateMessage`, and the `Expect` builder with its negation `.not` and its
matchers. The model proves what those functions promise about every input,
not just a few sample calls.

JavaScript values are modelled abstractly in `js.dfy`. Numbers are one of NaN,
a signed zero, a signed finite magnitude or a signed infinity. Strings and
functions are primitive. Arrays, ordinary objects, dates, regexes and the
three wrapper objects live in a finite heap. A sparse array stores only its
present indices. An ordinary object keeps its own enumerable keys in
enumeration order, the identity of its `constructor`, and, for an `Error`, its
message. A `Host` record holds the conversions the library calls but does
not define. They are left uninterpreted: `Number#toString`,
`Date#toUTCString`, `Function#toString`, the `toString` of arrays,
ordinary objects and dates (`Host.objectText`), and `<` on operands that are not both numbers or both
strings.

Modules follow the library's structure:

- `JsValues` (`js.dfy`): values, heap, `[[Class]]`, `===`, truthiness,
  relational `<`, the conversions the matchers use.
- `Equality` (`equality.dfy`): `eq`. Its ancestor stack is a parameter
  extended with `stack + [a]` rather than mutated. The source's push and pop
  are balanced on every path that can still return true.
- `EqualityLaws` (`equality_laws.dfy`): what `eq` does with each kind of value.
- `Formatting` (`formatting.dfy`): `formatValue`. The array loop pushes every
  element onto the caller's own stack, so the function returns the grown stack
  together with the text.
- `FormattingLaws`, `Messages`, `MessagesLaws`: the renderer's promises, and
  `generateMessage` with its whitespace normalisation.
- `Expectations` (`expectations.dfy`): `Expect`, `.not` and one function per
  matcher. A matcher returns which callback it calls (`pass` or `fail`) and
  with what message, or the host `TypeError` thrown before either call.
- `Matchers`, `MatcherLaws`: the matchers as one datatype, the claim each one
  checks (defined apart from how the matcher computes it), and the laws
  linking the two.

## Model

| member | source | states |
|---|---|---|
| `Equality.Eq` | expectations.js:88-168 | If either operand is `null` or `undefined`, the result is true exactly when both are; a true result for a non-nullish left operand means both share one `[[Class]]` |
| `EqualityLaws.EqNumbersEgal` | expectations.js:106-109 | Two Number-class values (primitive or boxed) are eq exactly when they are the same number under egal: NaN equals NaN, and zeros and infinities are told apart by sign |
| `EqualityLaws.EqSignedZeroAndNaN` | expectations.js:92 | `0` and `-0` are not eq in either order; NaN is eq to NaN |
| `EqualityLaws.EqReflexive` | expectations.js:92-168 | Every value is eq to itself, NaN included |
| `EqualityLaws.EqNullish` | expectations.js:93 | `null` and `undefined` are eq to each other and to nothing else, in either position |
| `EqualityLaws.EqDifferentClasses` | expectations.js:98-99 | Values of different `[[Class]]` are never eq, unless both are nullish |
| `EqualityLaws.EqStringWrapper` | expectations.js:102-105 | A string is eq to a `String` wrapper, in either order, exactly when the wrapper holds the same text |
| `EqualityLaws.EqBooleanWrapper` | expectations.js:110-115 | A boolean is eq to a `Boolean` wrapper, in either order, exactly when both hold the same truth value |
| `EqualityLaws.EqDates` | expectations.js:110-115 | Two date objects are eq exactly when their time values are `==`; an invalid date is eq to no other date |
| `EqualityLaws.EqRegExps` | expectations.js:117-118 | Two regexes are eq exactly when source and the global, multiline and ignoreCase flags agree |
| `EqualityLaws.EqFunctions` | expectations.js:92-120 | Functions are eq exactly when they are the same function |
| `EqualityLaws.EqOnStack` | expectations.js:123-128 | Once the left operand is on the ancestor stack, two arrays or two objects of one class are eq without being inspected |
| `EqualityLaws.EqSymmetricOnScalars` | expectations.js:92-120 | When neither operand is an array or an ordinary object, eq is symmetric and does not depend on the stack |
| `EqualityLaws.EqElemsAll` | expectations.js:140-143 | The descending element loop succeeds exactly when every index below the bound is present in both arrays or absent in both, with eq elements |
| `EqualityLaws.EqArrays` | expectations.js:134-144 | Two distinct arrays are eq exactly when their lengths match and every index agrees on presence and value, compared with the left array on the stack |
| `EqualityLaws.EqArrayCopy` | expectations.js:134-144 | A copy of an array is eq to it in either order |
| `EqualityLaws.EqPropsAll` | expectations.js:149-156 | The loop over the left object's keys succeeds exactly when every own key with a defined value is an own key of the right object holding an eq value |
| `EqualityLaws.CountDownZero` | expectations.js:158-162 | The count-down loop over the right object ends at zero exactly when the right object has as many defined-valued own keys as were counted on the left |
| `EqualityLaws.DefinedCountIsCardinality` | expectations.js:150-152 | Counting keys with a defined value over distinct keys gives the size of the set of such keys |
| `EqualityLaws.DefinedCountOfObject` | expectations.js:149-152 | For a well-formed object, the count equals the number of own keys whose value is not `undefined` |
| `EqualityLaws.EqObjects` | expectations.js:145-163 | Two distinct ordinary objects of one class are eq exactly when they share a constructor, every defined-valued key of the left is an own key of the right with an eq value, and both have equally many defined-valued keys |
| `EqualityLaws.EqSameDefinedEntries` | expectations.js:145-163 | Objects with the same class, constructor and defined entries are eq in either order, whatever their key order and whatever keys holding `undefined` either adds |
| `EqualityLaws.EqSparseVersusUndefined` | expectations.js:140-142 | An array with a hole and one with an explicit `undefined` at that index read the same element, yet are not eq in either order |
| `EqualityLaws.EqSelfLoops` | expectations.js:121-130 | Two distinct objects each holding only themselves under one key are eq |
| `EqualityLaws.EqCycleBreakAsymmetric` | expectations.js:121-130 | An array containing itself is eq to `[[]]`, but `[[]]` is not eq to it: the cycle break is one-sided |
| `EqualityLaws.InfinitiesEqualAsWritten` | expectations.js:109 | As written, the number case makes `Infinity` and `-Infinity` equal; the corrected `eq` does not |
| `EqualityLaws.BoxedZeroAsymmetricAsWritten` | expectations.js:109 | As written, `0` equals `new Number(-0)` but not the other way round; the corrected `eq` rejects both orders |
| `EqualityLaws.NumberBranchDiscrepancy` | expectations.js:109 | The as-written number case differs from egal exactly for infinities of opposite sign and for a primitive zero against a zero of the other sign |
| `Formatting.IndexOf` | expectations.js:32 | `indexOf` returns -1 or a position inside the searched range |
| `Formatting.Format` | expectations.js:28-85 | Rendering only ever extends the stack it is given, and only an array extends it |
| `Formatting.FormatElems` | expectations.js:56-59 | The array loop produces one rendering per remaining index and only extends the stack |
| `Formatting.FormatProps` | expectations.js:80-82 | The key mapping produces one entry per remaining own key of an ordinary object |
| `FormattingLaws.FormatPrimitives` | expectations.js:35-46 | `undefined` renders as empty text or `undefined` depending on the flag; strings are quoted without escaping; `null` and functions have fixed forms; the stack is unchanged |
| `FormattingLaws.FormatDepthLimit` | expectations.js:55-84 | With 10 or more values on the stack, arrays and objects are not expanded but rendered through their own `toString` |
| `FormattingLaws.IndexOfFinds` | expectations.js:32 | `indexOf` gives -1 exactly when no position holds a `===` value, and otherwise the first position that does |
| `FormattingLaws.OnStackIgnoresLastSlot` | expectations.js:31-33 | A value counts as on the stack exactly when a `===` value sits before the last position |
| `FormattingLaws.OnStackAfterPush` | expectations.js:31-33 | An object is on `stack.concat(obj)` exactly when it was already in `stack` |
| `FormattingLaws.SelfObjectEntries` | expectations.js:80-82 | The entries of `{self: o}` render as one entry with the key quoted, rendered with `o` pushed |
| `FormattingLaws.FormatPropsEntries` | expectations.js:80-82 | Each entry of the key mapping is the quoted key, `: `, and the key's value rendered with the object pushed on a copy of the stack |
| `FormattingLaws.FormatObjectExpands` | expectations.js:69-82 | An ordinary object whose `toString` gives `[object Object]`, not on the stack and below the depth limit, renders as braces around one entry per own key in key order, and leaves the stack unchanged |
| `FormattingLaws.FormatObjectNotExpanded` | expectations.js:69-79 | Below the depth limit, an ordinary object with any other `toString` text renders as that text in brackets, with an `Error: ` prefix for an error; an `[object Object]` already on the stack renders as `[Circular]` |
| `FormattingLaws.SelfObjectExpands` | expectations.js:69-82 | The self-referencing object `{self: o}`, whose `toString` gives `[object Object]`, renders as braces around its one entry when it is not on the stack and the stack has room for one more value below the depth limit |
| `FormattingLaws.FormatSelfReference` | expectations.js:69-82 | `o.self = o` renders as `{"self": {"self": [Circular]}}`: one extra level is printed because the pushed object sits in the ignored last slot |
| `FormattingLaws.FormatElemsFlat` | expectations.js:56-59 | On an array of primitives, the loop yields each element's rendering, holes as `undefined`, and pushes every element |
| `FormattingLaws.FormatFlatArray` | expectations.js:53-63 | An array of primitives renders as its element renderings joined by `, ` inside brackets, and leaves every element on the stack |
| `MessagesLaws.CollapseShrinks` | expectations.js:201 | Collapsing never lengthens a string, and strictly shortens one holding two adjacent whitespace characters |
| `MessagesLaws.CollapseIdentity` | expectations.js:201 | Collapsing leaves a string unchanged exactly when it has no two adjacent whitespace characters |
| `MessagesLaws.CollapseKeepsVisible` | expectations.js:201 | Collapsing keeps every non-whitespace character, in order |
| `MessagesLaws.TrimEndsIdentity` | expectations.js:201 | Trimming leaves a string unchanged exactly when it neither starts nor ends with whitespace, and removes at most one character from each end |
| `MessagesLaws.RawHasNoDoubleSpace` | expectations.js:201 | The raw sentence built from clean pieces has no two adjacent whitespace characters |
| `MessagesLaws.NormaliseClean` | expectations.js:201 | A string with no double whitespace that starts with a visible character loses only a trailing whitespace character |
| `MessagesLaws.ComposeForm` | expectations.js:200-207 | With clean pieces, the message is `expected <value> <expr><toDo>`, followed by ` <other>` when the other value renders non-empty, and prefixed by `<customMsg>: ` when a custom message is given |
| `MessagesLaws.NullSentences` | expectations.js:201-206 | With the subject `null` and no argument, the sentence is `expected null to be null`, and `expected null not to be null` when negated |
| `MessagesLaws.NullMessages` | expectations.js:200-207 | The `toBeNull` messages for a `null` subject read `expected null to be null` and `expected null not to be null` |
| `Expectations.NewExpect` | expectations.js:170-189 | A new expectation has `expr` "" and the subject it was given; without `assertions`, `pass` ignores its message and `fail` throws it |
| `Expectations.Expect` | expectations.js:343-345 | `expect(value)` is a new expectation with the default callbacks |
| `Expectations.Not` | expectations.js:185-188 | `.not` keeps the subject, flips negation and swaps `pass` and `fail` |
| `Expectations.Perform` | expectations.js:175-182 | A call of the default `pass` returns, of the default `fail` throws with the message, and of a custom callback hands the message over; a host `TypeError` propagates |
| `Expectations.ToEqual` | expectations.js:209-216 | Calls `pass` exactly when subject and argument are eq, with the message `to equal` in either case |
| `Expectations.ToNotEqual` | expectations.js:217-219 | Runs `toEqual` on `.not`: the message carries the negated `expr`, and the callback reached is decided by eq |
| `Expectations.ToBe` | expectations.js:220-226 | Calls `pass` exactly when subject `===` argument; the message says `to equal` |
| `Expectations.ToBeTruthy` | expectations.js:227-233 | Calls `pass` exactly when the subject is truthy |
| `Expectations.ToBeFalsy` | expectations.js:234-240 | Calls `pass` exactly when the subject is falsy; the message says `to be falsey` |
| `Expectations.ToBeGreaterThan` | expectations.js:241-247 | Calls `pass` exactly when argument `<` subject |
| `Expectations.ToBeLessThan` | expectations.js:248-254 | Calls `pass` exactly when subject `<` argument |
| `Expectations.SubstringIndex` | expectations.js:258 | `String#indexOf` returns -1 or a position where the text fits |
| `Expectations.ArrayIndex` | expectations.js:258 | `Array#indexOf` returns -1 or a present index holding a `===` element |
| `Expectations.Search` | expectations.js:258-265 | The search yields no verdict exactly for subjects without `indexOf`: not a string, `String` wrapper or array |
| `Expectations.ToContain` | expectations.js:255-268 | The host throws exactly for subjects without `indexOf`; otherwise `pass` is called exactly when the search succeeds, with the `to contain` message |
| `Expectations.ToBeDefined` | expectations.js:276-282 | Calls `pass` exactly when the subject is not `undefined` |
| `Expectations.ToBeUndefined` | expectations.js:283-289 | Calls `pass` exactly when the subject is `undefined` |
| `Expectations.ToBeNull` | expectations.js:290-296 | Calls `pass` exactly when the subject is `null` |
| `Expectations.ExpectedMessage` | expectations.js:304-309 | The expected message is the argument itself when it is a string, the `message` of an `Error` argument, and `undefined` for any other argument |
| `Expectations.ToThrow` | expectations.js:297-323 | Always reaches a callback; `pass` carries no message and every `fail` does; `pass` only when the subject is a function that threw a truthy value whose `message` is `===` the expected message whenever that is truthy |
| `MatcherLaws.SubstringIndexFinds` | expectations.js:258 | `String#indexOf` finds the text exactly when it occurs at some position at or after the start |
| `MatcherLaws.ArrayIndexFinds` | expectations.js:258 | `Array#indexOf` finds the item exactly when some present index holds a `===` element |
| `MatcherLaws.SomeCharEqFinds` | expectations.js:261-265 | The loop over a string succeeds exactly when some character, as a one-character string, is eq to the item |
| `MatcherLaws.SomeElemEqFinds` | expectations.js:261-265 | The loop over an array succeeds exactly when some element, holes read as `undefined`, is eq to the item |
| `MatcherLaws.SearchMeaning` | expectations.js:255-268 | `toContain` finds the item exactly when it occurs as a substring, a present `===` element, or a character or element eq to it |
| `MatcherLaws.RunFollowsClaim` | expectations.js:209-341 | Every matcher reaches a callback exactly when its claim is decided, and then invokes `pass` when the claim holds and `fail` otherwise |
| `MatcherLaws.NotNot` | expectations.js:185-188 | `.not.not` is the expectation itself, and `.not` of a root expectation has `expr` "not " |
| `MatcherLaws.NegationSwapsHandler` | expectations.js:185-188 | For every matcher, `.not` leaves a host `TypeError` alone and invokes the other callback |
| `MatcherLaws.DefaultCallbacksThrowOnFailure` | expectations.js:175-188 | With the default callbacks, `expect(v).m` throws exactly when the claim fails or the host throws, and `expect(v).not.m` exactly when it holds or the host throws |
| `MatcherLaws.DefaultFailureCarriesMessage` | expectations.js:175-182 | Under the default callbacks a matcher returns or throws, and what it throws carries the matcher's message |
| `MatcherLaws.ZeroSameButNotEqual` | expectations.js:220-226 | `expect(0).toBe(-0)` passes while `expect(0).toEqual(-0)` throws |
| `MatcherLaws.NotToBeNullMessage` | expectations.js:290-296 | `expect(null).not.toBeNull()` throws with the message `expected null not to be null` |
| `MatcherLaws.ToThrowOnNonFunction` | expectations.js:301-303 | On a subject that is not a function, `toThrow` fails with `to be a function` and drops the custom message, so the negated form passes silently |
| `MatcherLaws.NegatedToThrowHasNoMessage` | expectations.js:322 | The negated `toThrow` of a function that throws calls `fail` with no message |
| `MatcherLaws.ToThrowNothingThrown` | expectations.js:309-320 | A function that returns, or throws a falsy value, fails with `to throw an exception` and no argument, keeping the custom message |
| `MatcherLaws.ToNotEqualIsNotToEqual` | expectations.js:217-219 | `toNotEqual(v)` reacts and is observed exactly as `not.toEqual(v)` |
| `MatcherLaws.ToThrowWrongMessage` | expectations.js:307-321 | A function throwing an `Error` with a different message fails with `to throw` and the expected message |

## Left out

- The module wrapper and `AssertionError` (expectations.js:1-23) and the
  package entry `index.js`: environment plumbing. The default `fail` is
  modelled as throwing an error that carries its message.
- `toMatch` (expectations.js:269-275): it needs a regular-expression engine.
- `toBeCloseTo` (expectations.js:324-333): it needs floating-point arithmetic.
- `addAssertion` (expectations.js:346-348): it installs arbitrary user code.
- Custom `isEqual` hooks (expectations.js:95-96): they call user code.
  `JsValues.WfObj` admits no ordinary object whose own `isEqual` key holds
  a function, so every well-formed heap lacks such a hook. The condition is
  on the whole heap, so such an object is outside the model even for matchers
  that never call `eq`, such as `expect({isEqual: f}).toBeDefined()`.
- `Formatting.Format`: treats an ordinary object whose `nodeType` is loosely
  equal to 1 (expectations.js:65-67) as any other object and expands its keys.
  The source renders it as a DOM node `<name />`. When it has no string
  `nodeName`, the source instead throws a `TypeError` while building the
  message, before any callback runs; the model goes on to the callback.
- Non-enumerable and inherited properties, `hasOwnProperty` overrides, and an
  own property named `constructor`. The model holds own enumerable keys only,
  with the constructor kept separately.
- `Equality.Eq`: compares numbers with the corrected egal case
  (`Equality.NumberBranch`), not line 109 as written (see Findings). It
  therefore differs from the source on `Infinity` against `-Infinity` and on
  `0` against a boxed `-0` (`new Number(-0)`): the source finds both pairs
  equal, the model finds neither equal. `toEqual`, `toNotEqual` and
  `toContain` (`Expectations.ToEqual`, `Expectations.ToNotEqual`,
  `Expectations.ToContain`) and the laws about them
  (`Matchers.Claim`, `MatcherLaws.RunFollowsClaim`,
  `MatcherLaws.DefaultCallbacksThrowOnFailure`) inherit this difference.
  Separately, for finite non-zero numbers the source compares `1/a == 1/b`
  in floating point; the model compares the exact numbers. Rounding makes
  distinct magnitudes compare equal there, most of all for subnormal
  numbers, whose reciprocals overflow to `Infinity`: the source finds
  `eq(1e-310, 2e-310, [])` true on line 109, the model false. Two large
  magnitudes with the same rounded reciprocal are another such case.
- `EqualityLaws.EqSymmetricOnScalars`: states symmetry of the corrected
  comparison. The source as written is not symmetric on `0` against a boxed
  `-0` (`EqualityLaws.BoxedZeroAsymmetricAsWritten`).
- Regex flags other than global, ignoreCase and multiline.
- `Formatting.Format`: requires that following element 0 from array to
  array never returns to an array already visited
  (`Formatting.ArrayNestingAcyclic`). On such a cycle, for example
  `a = []; a[0] = a`, reached with fewer than 10 values on the stack, the
  source recurses without end and overflows the host stack: the array loop
  (expectations.js:56-59) pushes onto the stack only after rendering an
  element, so nothing is pushed before element 0 is rendered and the guard on
  line 55 never fires. Reached with 10 or more values on the stack, as in
  `[0, 0, 0, 0, 0, 0, 0, 0, 0, 0, a]`, the guard fires and line 61 renders
  `a` through its `toString`, so the source terminates. The requirement
  covers the whole heap, so it also excludes heaps where such a cycle is
  reached only at depth 10 or more, or not reached at all. Any other cycle, such as
  `a = [1]; a.push(a)`, terminates in the source, because each lap pushes an
  element and the depth limit on line 55 stops the descent; the model covers
  those.
  The requirement is stated as a numbering of the heap: when element 0 of an
  array is an array, it sits at a smaller address. This also rejects acyclic
  heaps numbered the other way, such as `[[]]` with the inner array at the
  higher address; every heap without such a cycle can be renumbered to meet
  it.
- `Formatting.FormatProps`: enumerates the keys of ordinary objects only. A
  `String` wrapper whose text is `[object Object]` reaches the object branch
  (expectations.js:78-82), where the source lists its index keys and renders
  `{"0": "[", "1": "o", ...}`; the model renders `{}`.
- Host conversions always return. `Host.objectText`, `Host.numberText` and
  `Host.utcText` are total. An object without a callable `toString`, such as
  `Object.create(null)`, makes `formatValue` throw a `TypeError` on
  expectations.js:70 or 84 before any callback runs, and `String(val)` in
  `toContain` throws likewise; the model renders such an object through
  `Host.objectText` and goes on to the callback.
- Function names: a `JsValues.Value` function is `Func(id, name)`, and the
  model assumes the `name` is determined by the `id`. Two `Func` values with
  one `id` and different names compare unequal, which no JavaScript function
  can produce.
- Objects carrying their own `indexOf`. `toContain` treats every ordinary
  object as lacking `indexOf`.
- A non-string custom message. `customMsg` is a string, with "" for none.
- `JsValues.StrLess` compares Dafny characters (code points). JavaScript
  compares UTF-16 code units, so the two orders differ for characters beyond
  U+FFFF.
- What calling the subject of `toThrow` does is a parameter
  (`Expectations.Behaviour`): the call itself runs user code.

## Findings

| source | as written | input that shows it | evidently intended | confidence | as-written member | corrected member |
|---|---|---|---|---|---|---|
| expectations.js:109 | For a truthy left number, compares `1 / a == 1 / b`; the reciprocals of `Infinity` and `-Infinity` are `0` and `-0`, which are `==` | `eq(Infinity, -Infinity, [])` returns true | egal: opposite infinities differ, as the comment on line 107-108 says | not executed | `EqualityLaws.InfinitiesEqualAsWritten` | `EqualityLaws.EqNumbersEgal` |
| expectations.js:109 | For a falsy left number, compares `a == +b`, so `0` and a boxed `-0` are equal, while the boxed `-0` on the left is truthy and compares reciprocals | `eq(0, new Number(-0), [])` returns true but `eq(new Number(-0), 0, [])` returns false | egal in both orders: the zeros differ | not executed | `EqualityLaws.BoxedZeroAsymmetricAsWritten` | `EqualityLaws.EqNumbersEgal` |

Both rows come from `Equality.NumberBranchAsWritten`, which is the code as
written. `Equality.NumberBranch` is the corrected comparison, and `Equality.Eq`
uses it. `EqualityLaws.NumberBranchDiscrepancy` proves that, over exact
numbers, the two differ on exactly these inputs and on no others. Floating-point
rounding adds further differences, listed under `Equality.Eq` in "Left out".

=== FILE: equality.dfy ===
/** The structural deep-equality comparator `eq(a, b, stack)` of
    expectations.js (adapted from underscore). The ancestor stack holds the
    addresses of the left-hand objects being compared; it is passed by value,
    each recursive level seeing `stack + [a]`. */
module Equality {
  import opened JsValues

  function Visited(stack: seq<Addr>): set<Addr> {
    set x | x in stack
  }

  /** The termination measure: heap objects not yet on the stack. */
  function Unvisited(h: Heap, stack: seq<Addr>): set<Addr> {
    h.Keys - Visited(stack)
  }

  lemma PushShrinksUnvisited(h: Heap, stack: seq<Addr>, a: Addr)
    requires a in h && a !in stack
    ensures Unvisited(h, stack + [a]) < Unvisited(h, stack)
  {
    assert Visited(stack + [a]) == Visited(stack) + {a};
    assert a in Unvisited(h, stack) && a !in Unvisited(h, stack + [a]);
  }

  /** The number case of the `[[Class]]` switch, as the source writes it:
      `a != +a ? b != +b : (a ? 1 / a == 1 / b : a == +b)`. */
  predicate NumberBranchAsWritten(h: Heap, a: Value, b: Value)
    requires Valid(h, a) && Valid(h, b)
    requires ClassOf(h, a) == NumberClass && ClassOf(h, b) == NumberClass
  {
    var x := NumberOf(h, a);
    var y := NumberOf(h, b);
    if x.NaN? then y.NaN?
    else if Truthy(a) then NumEquals(Reciprocal(x), Reciprocal(y))
    else NumEquals(x, y)
  }

  /** The number case as the comment above it intends: NaN equals NaN and
      otherwise an egal comparison, which separates the two zeros and the two
      infinities. With `Num` abstract this is equality of the numeric values. */
  predicate NumberBranch(h: Heap, a: Value, b: Value)
    requires Valid(h, a) && Valid(h, b)
    requires ClassOf(h, a) == NumberClass && ClassOf(h, b) == NumberClass
  {
    NumberOf(h, a) == NumberOf(h, b)
  }

  predicate SameRegExp(x: HeapObj, y: HeapObj)
    requires x.RegExpObj? && y.RegExpObj?
  {
    x.source == y.source && x.global == y.global && x.multiline == y.multiline && x.ignoreCase == y.ignoreCase
  }

  /** `'constructor' in a == 'constructor' in b && a.constructor == b.constructor`. */
  predicate SameConstructor(x: HeapObj, y: HeapObj)
    requires x.PlainObj? && y.PlainObj?
  {
    x.ctor == y.ctor
  }

  /** The number of keys from position `i` on whose value is not `undefined`. */
  function DefinedCount(keys: seq<string>, props: map<string, Value>, i: nat): nat
    requires forall k :: 0 <= k < |keys| ==> keys[k] in props
    decreases |keys| - i
  {
    if i >= |keys| then 0
    else (if props[keys[i]] != Undefined then 1 else 0) + DefinedCount(keys, props, i + 1)
  }

  /** The second `for (key in b)` loop: each own defined-valued key of `b`
      decrements `size`; reaching a key while `size` is already 0 leaves -1
      and stops. The source accepts when the final `size` is 0. */
  function CountDown(keys: seq<string>, props: map<string, Value>, j: nat, size: int): int
    requires forall k :: 0 <= k < |keys| ==> keys[k] in props
    decreases |keys| - j
  {
    if j >= |keys| then size
    else if props[keys[j]] != Undefined then
      if size == 0 then -1 else CountDown(keys, props, j + 1, size - 1)
    else CountDown(keys, props, j + 1, size)
  }

  function Eq(h: Heap, a: Value, b: Value, stack: seq<Addr>): (r: bool)
    requires WfHeap(h) && Valid(h, a) && Valid(h, b)
    ensures a.IsNullish() || b.IsNullish() ==> (r <==> a.IsNullish() && b.IsNullish())
    ensures r && !a.IsNullish() ==> ClassOf(h, a) == ClassOf(h, b)
    decreases Unvisited(h, stack), 0, 0
  {
    if StrictEq(a, b) then
      // `a !== 0 || 1 / a == 1 / b`
      if a.Number? && a.n.Zero? then NumEquals(Reciprocal(a.n), Reciprocal(b.n)) else true
    else if a.IsNullish() || b.IsNullish() then
      a.IsNullish() && b.IsNullish()
    else
      var cls := ClassOf(h, a);
      if cls != ClassOf(h, b) then false
      else if cls == StringClass then StringOf(h, a) == StringOf(h, b)
      else if cls == NumberClass then NumberBranch(h, a, b)
      else if cls == DateClass || cls == BooleanClass then NumEquals(TimeOrBoolOf(h, a), TimeOrBoolOf(h, b))
      else if cls == RegExpClass then SameRegExp(h[a.addr], h[b.addr])
      else if !IsObject(a) || !IsObject(b) then false
      else if a.addr in stack then true
      else
        PushShrinksUnvisited(h, stack, a.addr);
        var x := h[a.addr];
        var y := h[b.addr];
        if cls == ArrayClass then
          x.length == y.length && EqElems(h, a.addr, b.addr, x.length, stack + [a.addr])
        else
          && SameConstructor(x, y)
          && EqProps(h, a.addr, b.addr, 0, stack + [a.addr])
          && CountDown(y.keys, y.props, 0, DefinedCount(x.keys, x.props, 0)) == 0
  }

  /** The descending `while (size--)` loop over indices `i - 1` down to 0. */
  function EqElems(h: Heap, ra: Addr, rb: Addr, i: nat, stack: seq<Addr>): bool
    requires WfHeap(h) && ra in h && rb in h && h[ra].ArrayObj? && h[rb].ArrayObj?
    decreases Unvisited(h, stack), 1, i
  {
    if i == 0 then true
    else
      var j := i - 1;
      && HasIndex(h[ra], j) == HasIndex(h[rb], j)
      && Eq(h, Elem(h[ra], j), Elem(h[rb], j), stack)
      && EqElems(h, ra, rb, j, stack)
  }

  /** The first `for (key in a)` loop, from key position `i` on: every own key
      of `a` whose value is defined must be an own key of `b` with an eq value. */
  function EqProps(h: Heap, ra: Addr, rb: Addr, i: nat, stack: seq<Addr>): bool
    requires WfHeap(h) && ra in h && rb in h && h[ra].PlainObj? && h[rb].PlainObj?
    decreases Unvisited(h, stack), 1, |h[ra].keys| - i
  {
    var x := h[ra];
    if i >= |x.keys| then true
    else
      var k := x.keys[i];
      var v := x.props[k];
      if v == Undefined then EqProps(h, ra, rb, i + 1, stack)
      else
        && k in h[rb].props
        && Eq(h, v, h[rb].props[k], stack)
        && EqProps(h, ra, rb, i + 1, stack)
  }
}

=== FILE: equality_laws.dfy ===
/** What `eq` promises, stated over every heap: its behaviour on primitives,
    boxed values, dates and regexes, the characterisations of its array and
    object cases, and the consequences of its optimistic cycle break. */
module EqualityLaws {
  import opened JsValues
  import opened Equality

  /** Same-valued numbers under egal: NaN is itself, the zeros and the
      infinities are told apart by sign. */
  lemma EqNumbersEgal(h: Heap, a: Value, b: Value, stack: seq<Addr>)
    requires WfHeap(h) && Valid(h, a) && Valid(h, b)
    requires ClassOf(h, a) == NumberClass && ClassOf(h, b) == NumberClass
    ensures Eq(h, a, b, stack) <==> NumberOf(h, a) == NumberOf(h, b)
  {
  }

  lemma EqSignedZeroAndNaN(h: Heap, stack: seq<Addr>)
    requires WfHeap(h)
    ensures !Eq(h, Number(Zero(false)), Number(Zero(true)), stack)
    ensures !Eq(h, Number(Zero(true)), Number(Zero(false)), stack)
    ensures Eq(h, Number(NaN), Number(NaN), stack)
  {
  }

  /** Every value is eq to itself, NaN included. */
  lemma EqReflexive(h: Heap, v: Value, stack: seq<Addr>)
    requires WfHeap(h) && Valid(h, v)
    ensures Eq(h, v, v, stack)
  {
    if v.Number? && v.n.NaN? {
      EqNumbersEgal(h, v, v, stack);
    }
  }

  /** `null` and `undefined` equal each other and nothing else. */
  lemma EqNullish(h: Heap, v: Value, stack: seq<Addr>)
    requires WfHeap(h) && Valid(h, v)
    ensures Eq(h, Null, v, stack) <==> v.IsNullish()
    ensures Eq(h, v, Null, stack) <==> v.IsNullish()
    ensures Eq(h, Undefined, v, stack) <==> v.IsNullish()
    ensures Eq(h, v, Undefined, stack) <==> v.IsNullish()
  {
  }

  lemma EqDifferentClasses(h: Heap, a: Value, b: Value, stack: seq<Addr>)
    requires WfHeap(h) && Valid(h, a) && Valid(h, b)
    requires ClassOf(h, a) != ClassOf(h, b) && !(a.IsNullish() && b.IsNullish())
    ensures !Eq(h, a, b, stack)
  {
  }

  /** A string equals its `String` wrapper, in either order. */
  lemma EqStringWrapper(h: Heap, s: string, r: Addr, stack: seq<Addr>)
    requires WfHeap(h) && r in h && h[r].StringObj?
    ensures Eq(h, Str(s), Ref(r), stack) <==> s == h[r].s
    ensures Eq(h, Ref(r), Str(s), stack) <==> s == h[r].s
  {
  }

  /** A boolean equals its `Boolean` wrapper exactly when they hold the same truth value. */
  lemma EqBooleanWrapper(h: Heap, x: bool, r: Addr, stack: seq<Addr>)
    requires WfHeap(h) && r in h && h[r].BooleanObj?
    ensures Eq(h, Bool(x), Ref(r), stack) <==> x == h[r].b
    ensures Eq(h, Ref(r), Bool(x), stack) <==> x == h[r].b
  {
  }

  /** Two distinct date objects are eq exactly when their time values are
      numerically equal; so an invalid date equals no other date object. */
  lemma EqDates(h: Heap, ra: Addr, rb: Addr, stack: seq<Addr>)
    requires WfHeap(h) && ra in h && rb in h && ra != rb
    requires h[ra].DateObj? && h[rb].DateObj?
    ensures Eq(h, Ref(ra), Ref(rb), stack) <==> NumEquals(h[ra].time, h[rb].time)
    ensures h[ra].time.NaN? ==> !Eq(h, Ref(ra), Ref(rb), stack)
  {
  }

  /** Two distinct regexes are eq exactly when source and the g, m, i flags agree. */
  lemma EqRegExps(h: Heap, ra: Addr, rb: Addr, stack: seq<Addr>)
    requires WfHeap(h) && ra in h && rb in h && ra != rb
    requires h[ra].RegExpObj? && h[rb].RegExpObj?
    ensures Eq(h, Ref(ra), Ref(rb), stack) <==>
      && h[ra].source == h[rb].source
      && h[ra].global == h[rb].global
      && h[ra].multiline == h[rb].multiline
      && h[ra].ignoreCase == h[rb].ignoreCase
  {
  }

  /** Functions compare by identity only. */
  lemma EqFunctions(h: Heap, f: Value, g: Value, stack: seq<Addr>)
    requires WfHeap(h) && f.Func? && g.Func?
    ensures Eq(h, f, g, stack) <==> f == g
  {
  }

  predicate Composite(h: Heap, v: Value)
    requires Valid(h, v)
  {
    v.Ref? && (h[v.addr].ArrayObj? || h[v.addr].PlainObj?)
  }

  /** The optimistic cycle break: once the left operand is on the ancestor
      stack, two composites of the same class are taken as equal without
      descending. */
  lemma EqOnStack(h: Heap, ra: Addr, rb: Addr, stack: seq<Addr>)
    requires WfHeap(h) && ra in h && rb in h
    requires Composite(h, Ref(ra)) && ClassOf(h, Ref(ra)) == ClassOf(h, Ref(rb))
    requires ra in stack
    ensures Eq(h, Ref(ra), Ref(rb), stack)
  {
  }

  /** Away from arrays and ordinary objects the comparison is symmetric and
      ignores the stack. */
  lemma EqSymmetricOnScalars(h: Heap, a: Value, b: Value, s1: seq<Addr>, s2: seq<Addr>)
    requires WfHeap(h) && Valid(h, a) && Valid(h, b)
    requires !Composite(h, a) && !Composite(h, b)
    ensures Eq(h, a, b, s1) == Eq(h, b, a, s2)
  {
  }

  // ---- arrays ----

  /** Index `j` agrees: present in both or absent in both, and eq elements. */
  predicate IndexAgrees(h: Heap, ra: Addr, rb: Addr, j: nat, stack: seq<Addr>)
    requires WfHeap(h) && ra in h && rb in h && h[ra].ArrayObj? && h[rb].ArrayObj?
  {
    && HasIndex(h[ra], j) == HasIndex(h[rb], j)
    && Eq(h, Elem(h[ra], j), Elem(h[rb], j), stack)
  }

  lemma {:induction false} EqElemsAll(h: Heap, ra: Addr, rb: Addr, i: nat, stack: seq<Addr>)
    requires WfHeap(h) && ra in h && rb in h && h[ra].ArrayObj? && h[rb].ArrayObj?
    ensures EqElems(h, ra, rb, i, stack) <==> forall j :: 0 <= j < i ==> IndexAgrees(h, ra, rb, j, stack)
  {
    if i > 0 {
      EqElemsAll(h, ra, rb, i - 1, stack);
      assert EqElems(h, ra, rb, i, stack) == (IndexAgrees(h, ra, rb, i - 1, stack) && EqElems(h, ra, rb, i - 1, stack));
    }
  }

  /** Two distinct arrays, the left one not yet on the stack, are eq exactly
      when their lengths match and every index agrees on presence and value;
      the elements are compared with the left array pushed on the stack. */
  lemma EqArrays(h: Heap, ra: Addr, rb: Addr, stack: seq<Addr>)
    requires WfHeap(h) && ra in h && rb in h && ra != rb && ra !in stack
    requires h[ra].ArrayObj? && h[rb].ArrayObj?
    ensures Eq(h, Ref(ra), Ref(rb), stack) <==>
      && h[ra].length == h[rb].length
      && forall j :: 0 <= j < h[ra].length ==> IndexAgrees(h, ra, rb, j, stack + [ra])
  {
    EqElemsAll(h, ra, rb, h[ra].length, stack + [ra]);
  }

  /** `eq(arr, arr.slice())`: a copy of an array is eq to it, in either order. */
  lemma EqArrayCopy(h: Heap, ra: Addr, rb: Addr, stack: seq<Addr>)
    requires WfHeap(h) && ra in h && rb in h && ra !in stack && rb !in stack
    requires h[ra].ArrayObj? && h[rb] == h[ra]
    ensures Eq(h, Ref(ra), Ref(rb), stack) && Eq(h, Ref(rb), Ref(ra), stack)
  {
    if ra != rb {
      EqArrays(h, ra, rb, stack);
      EqArrays(h, rb, ra, stack);
      forall j | 0 <= j < h[ra].length
        ensures IndexAgrees(h, ra, rb, j, stack + [ra]) && IndexAgrees(h, rb, ra, j, stack + [rb])
      {
        EqReflexive(h, Elem(h[ra], j), stack + [ra]);
        EqReflexive(h, Elem(h[ra], j), stack + [rb]);
      }
    }
  }

  // ---- ordinary objects ----

  /** The own keys whose value is not `undefined`. */
  function DefinedKeys(props: map<string, Value>): set<string> {
    set k | k in props && props[k] != Undefined
  }

  /** Key `k` of `a`: when its value is defined, `b` owns `k` with an eq value. */
  predicate KeyAgrees(h: Heap, ra: Addr, rb: Addr, k: string, stack: seq<Addr>)
    requires WfHeap(h) && ra in h && rb in h && h[ra].PlainObj? && h[rb].PlainObj?
    requires k in h[ra].props
  {
    h[ra].props[k] != Undefined ==> k in h[rb].props && Eq(h, h[ra].props[k], h[rb].props[k], stack)
  }

  lemma {:induction false} EqPropsAll(h: Heap, ra: Addr, rb: Addr, i: nat, stack: seq<Addr>)
    requires WfHeap(h) && ra in h && rb in h && h[ra].PlainObj? && h[rb].PlainObj?
    ensures WfObj(h, h[ra])
    ensures EqProps(h, ra, rb, i, stack) <==>
      forall n :: i <= n < |h[ra].keys| ==> KeyAgrees(h, ra, rb, h[ra].keys[n], stack)
    decreases |h[ra].keys| - i
  {
    assert WfObj(h, h[ra]);
    if i < |h[ra].keys| {
      EqPropsAll(h, ra, rb, i + 1, stack);
    }
  }

  /** The count-down loop over `b` ends at 0 exactly when `b` has as many
      defined-valued keys as it started with. */
  lemma {:induction false} CountDownZero(keys: seq<string>, props: map<string, Value>, j: nat, size: nat)
    requires forall k :: 0 <= k < |keys| ==> keys[k] in props
    ensures CountDown(keys, props, j, size) == 0 <==> DefinedCount(keys, props, j) == size
    decreases |keys| - j
  {
    if j < |keys| {
      if props[keys[j]] != Undefined {
        if size > 0 {
          CountDownZero(keys, props, j + 1, size - 1);
        }
      } else {
        CountDownZero(keys, props, j + 1, size);
      }
    }
  }

  function DefinedIn(keys: seq<string>, props: map<string, Value>): set<string> {
    set k | k in keys && k in props && props[k] != Undefined
  }

  lemma {:induction false} DefinedCountIsCardinality(keys: seq<string>, props: map<string, Value>, i: nat)
    requires forall k :: 0 <= k < |keys| ==> keys[k] in props
    requires forall m, n :: 0 <= m < n < |keys| ==> keys[m] != keys[n]
    requires i <= |keys|
    ensures DefinedCount(keys, props, i) == |DefinedIn(keys[i..], props)|
    decreases |keys| - i
  {
    if i == |keys| {
      assert DefinedIn(keys[i..], props) == {};
    } else {
      DefinedCountIsCardinality(keys, props, i + 1);
      var k := keys[i];
      var rest := DefinedIn(keys[i + 1..], props);
      assert k !in keys[i + 1..] by {
        forall n | i + 1 <= n < |keys| ensures keys[n] != k { }
      }
      assert keys[i..] == [k] + keys[i + 1..];
      assert k !in rest;
      if props[k] != Undefined {
        assert DefinedIn(keys[i..], props) == rest + {k};
        assert |rest + {k}| == |rest| + 1;
      } else {
        assert DefinedIn(keys[i..], props) == rest;
      }
    }
  }

  /** The source's counting agrees with the number of defined-valued own keys. */
  lemma DefinedCountOfObject(h: Heap, r: Addr)
    requires WfHeap(h) && r in h && h[r].PlainObj?
    ensures DefinedCount(h[r].keys, h[r].props, 0) == |DefinedKeys(h[r].props)|
  {
    var o := h[r];
    assert WfObj(h, o);
    DefinedCountIsCardinality(o.keys, o.props, 0);
    assert o.keys[0..] == o.keys;
    assert DefinedIn(o.keys, o.props) == DefinedKeys(o.props);
  }

  /** Over the own keys of an ordinary object, "every listed key agrees"
      and "every own key agrees" say the same. */
  lemma KeyListCoversProps(h: Heap, ra: Addr, rb: Addr, stack: seq<Addr>)
    requires WfHeap(h) && ra in h && rb in h && h[ra].PlainObj? && h[rb].PlainObj?
    ensures (forall n :: 0 <= n < |h[ra].keys| ==> KeyAgrees(h, ra, rb, h[ra].keys[n], stack))
      <==> (forall k :: k in h[ra].props ==> KeyAgrees(h, ra, rb, k, stack))
  {
    assert WfObj(h, h[ra]);
  }

  /** Two distinct ordinary objects of one class, the left not yet on the
      stack, are eq exactly when they share a constructor, every defined-valued
      own key of the left is an own key of the right with an eq value, and
      both have equally many defined-valued own keys. Key order plays no part. */
  lemma EqObjects(h: Heap, ra: Addr, rb: Addr, stack: seq<Addr>)
    requires WfHeap(h) && ra in h && rb in h && ra != rb && ra !in stack
    requires h[ra].PlainObj? && h[rb].PlainObj? && h[ra].cls == h[rb].cls
    ensures Eq(h, Ref(ra), Ref(rb), stack) <==>
      && h[ra].ctor == h[rb].ctor
      && (forall k :: k in h[ra].props ==> KeyAgrees(h, ra, rb, k, stack + [ra]))
      && |DefinedKeys(h[ra].props)| == |DefinedKeys(h[rb].props)|
  {
    var x, y := h[ra], h[rb];
    assert WfObj(h, x) && WfObj(h, y);
    var props := EqProps(h, ra, rb, 0, stack + [ra]);
    var count := CountDown(y.keys, y.props, 0, DefinedCount(x.keys, x.props, 0));
    assert Eq(h, Ref(ra), Ref(rb), stack) <==> SameConstructor(x, y) && props && count == 0;
    EqPropsAll(h, ra, rb, 0, stack + [ra]);
    KeyListCoversProps(h, ra, rb, stack + [ra]);
    CountDownZero(y.keys, y.props, 0, DefinedCount(x.keys, x.props, 0));
    DefinedCountOfObject(h, ra);
    DefinedCountOfObject(h, rb);
  }

  /** Two objects of one class and constructor holding the same defined
      values are eq in either order, whatever their key order and whatever
      keys with `undefined` values either one adds: `{x: undefined}` equals
      `{}`, and a copy with reordered keys equals the original. */
  lemma EqSameDefinedEntries(h: Heap, ra: Addr, rb: Addr, stack: seq<Addr>)
    requires WfHeap(h) && ra in h && rb in h && ra !in stack && rb !in stack
    requires h[ra].PlainObj? && h[rb].PlainObj?
    requires h[ra].cls == h[rb].cls && h[ra].ctor == h[rb].ctor
    requires DefinedKeys(h[ra].props) == DefinedKeys(h[rb].props)
    requires forall k :: k in DefinedKeys(h[ra].props) ==> h[ra].props[k] == h[rb].props[k]
    ensures Eq(h, Ref(ra), Ref(rb), stack) && Eq(h, Ref(rb), Ref(ra), stack)
  {
    if ra != rb {
      EqObjects(h, ra, rb, stack);
      EqObjects(h, rb, ra, stack);
      assert WfObj(h, h[ra]) && WfObj(h, h[rb]);
      forall k | k in h[ra].props
        ensures KeyAgrees(h, ra, rb, k, stack + [ra])
      {
        if h[ra].props[k] != Undefined {
          assert k in DefinedKeys(h[ra].props);
          EqReflexive(h, h[ra].props[k], stack + [ra]);
        }
      }
      forall k | k in h[rb].props
        ensures KeyAgrees(h, rb, ra, k, stack + [rb])
      {
        if h[rb].props[k] != Undefined {
          assert k in DefinedKeys(h[rb].props);
          EqReflexive(h, h[rb].props[k], stack + [rb]);
        }
      }
    }
  }

  // ---- sparse arrays and cycles ----

  /** A hole and an explicit `undefined` hold the same element but differ in
      presence, so `[ , ]` and `[undefined]` are unequal in both orders. */
  lemma EqSparseVersusUndefined(h: Heap, ra: Addr, rb: Addr, stack: seq<Addr>)
    requires WfHeap(h) && ra in h && rb in h && ra !in stack && rb !in stack
    requires h[ra] == ArrayObj(1, map[]) && h[rb] == ArrayObj(1, map[0 := Undefined])
    ensures Elem(h[ra], 0) == Elem(h[rb], 0)
    ensures !Eq(h, Ref(ra), Ref(rb), stack) && !Eq(h, Ref(rb), Ref(ra), stack)
  {
    assert 0 in h[rb].elems && 0 !in h[ra].elems;
    EqArrays(h, ra, rb, stack);
    EqArrays(h, rb, ra, stack);
    assert !IndexAgrees(h, ra, rb, 0, stack + [ra]);
    assert !IndexAgrees(h, rb, ra, 0, stack + [rb]);
  }

  /** Two distinct objects each holding only themselves under `self` are eq:
      the comparison of the `self` values meets the left object on the stack. */
  lemma EqSelfLoops(h: Heap, ra: Addr, rb: Addr, ctor: Option<nat>)
    requires WfHeap(h) && ra in h && rb in h && ra != rb
    requires h[ra] == SelfObject(ctor, ra) && h[rb] == SelfObject(ctor, rb)
    ensures Eq(h, Ref(ra), Ref(rb), [])
  {
    EqObjects(h, ra, rb, []);
    EqOnStack(h, ra, rb, [ra]);
    assert DefinedKeys(h[ra].props) == {"self"} == DefinedKeys(h[rb].props);
    assert KeyAgrees(h, ra, rb, "self", [] + [ra]);
  }

  /** The cycle break is optimistic and one-sided: an array holding itself
      is eq to `[[]]`, yet `[[]]` is not eq to it. */
  lemma EqCycleBreakAsymmetric(h: Heap, ra: Addr, rb: Addr, rc: Addr)
    requires WfHeap(h) && ra in h && rb in h && rc in h
    requires ra != rb && rb != rc && ra != rc
    requires h[ra] == ArrayObj(1, map[0 := Ref(ra)])
    requires h[rb] == ArrayObj(1, map[0 := Ref(rc)])
    requires h[rc] == ArrayObj(0, map[])
    ensures Eq(h, Ref(ra), Ref(rb), [])
    ensures !Eq(h, Ref(rb), Ref(ra), [])
  {
    EqArrays(h, ra, rb, []);
    EqOnStack(h, ra, rc, [ra]);
    assert IndexAgrees(h, ra, rb, 0, [] + [ra]);
    EqArrays(h, rb, ra, []);
    EqArrays(h, rc, ra, [rb]);
    assert !IndexAgrees(h, rb, ra, 0, [] + [rb]);
  }

  // ---- the number case as written ----

  /** As written, `Infinity` and `-Infinity` compare equal: both are truthy,
      and their reciprocals `0` and `-0` are `==`. */
  lemma InfinitiesEqualAsWritten(h: Heap)
    requires WfHeap(h)
    ensures NumberBranchAsWritten(h, Number(Infinity(false)), Number(Infinity(true)))
    ensures !Eq(h, Number(Infinity(false)), Number(Infinity(true)), [])
  {
  }

  /** As written, a primitive `0` equals `new Number(-0)` (a falsy left
      operand is compared with `==`) but not the other way round (a boxed
      left operand is truthy, so the reciprocals are compared). */
  lemma BoxedZeroAsymmetricAsWritten(h: Heap, r: Addr)
    requires WfHeap(h) && r in h && h[r] == NumberObj(Zero(true))
    ensures NumberBranchAsWritten(h, Number(Zero(false)), Ref(r))
    ensures !NumberBranchAsWritten(h, Ref(r), Number(Zero(false)))
    ensures !Eq(h, Number(Zero(false)), Ref(r), []) && !Eq(h, Ref(r), Number(Zero(false)), [])
  {
  }

  /** The as-written number case departs from egal exactly on these two
      inputs: infinities of opposite sign, and a primitive zero against a
      boxed zero of the other sign. */
  lemma NumberBranchDiscrepancy(h: Heap, a: Value, b: Value)
    requires WfHeap(h) && Valid(h, a) && Valid(h, b)
    requires ClassOf(h, a) == NumberClass && ClassOf(h, b) == NumberClass
    ensures NumberBranchAsWritten(h, a, b) != NumberBranch(h, a, b) <==>
      var x, y := NumberOf(h, a), NumberOf(h, b);
      || (x.Infinity? && y.Infinity? && x.negative != y.negative)
      || (a.Number? && x.Zero? && y.Zero? && x.negative != y.negative)
  {
    var x, y := NumberOf(h, a), NumberOf(h, b);
    if x.Finite? && y.Finite? && Truthy(a) {
      if Reciprocal(x) == Reciprocal(y) {
        assert 1.0 / x.magnitude == 1.0 / y.magnitude;
        assert x.magnitude == 1.0 / (1.0 / x.magnitude);
        assert y.magnitude == 1.0 / (1.0 / y.magnitude);
      }
    }
  }
}

=== FILE: expectations.dfy ===
/** The `Expect` builder and its matchers. Every matcher renders its message
    first, decides whether the claim holds, and calls exactly one of the two
    assertion callbacks `pass` and `fail` of its expectation. The negated
    expectation `.not` shares the subject and has the two callbacks swapped. */
module Expectations {
  import opened JsValues
  import opened Equality
  import opened Formatting
  import opened Messages

  /** What an assertion callback does with the message it is handed: the
      default `pass` ignores it, the default `fail` throws an
      `AssertionError` carrying it, and user-supplied callbacks are opaque. */
  datatype Handler = Ignore | Raise | Custom(id: nat)

  /** The `assertions` object: the callbacks `pass` and `fail`. */
  datatype Backend = Backend(pass: Handler, fail: Handler)

  const DefaultBackend := Backend(Ignore, Raise)

  /** An `Expect` instance: the subject, its callbacks, and whether it is the
      `.not` of another expectation (its `expr` is then "not "). */
  datatype Expectation = Expectation(value: Value, backend: Backend, negated: bool)
  {
    function Expr(): string {
      if negated then "not " else ""
    }
  }

  /** `new Expect(value, assertions)`: a root expectation, with the default
      callbacks when `assertions` is not given. */
  function NewExpect(value: Value, assertions: Option<Backend>): (e: Expectation)
    ensures e.value == value && e.Expr() == ""
    ensures assertions.None? ==> e.backend.pass == Ignore && e.backend.fail == Raise
    ensures assertions.Some? ==> e.backend == assertions.value
  {
    Expectation(value, if assertions.Some? then assertions.value else DefaultBackend, false)
  }

  /** `expect(value)`. */
  function Expect(value: Value): (e: Expectation)
    ensures e == NewExpect(value, None)
  {
    Expectation(value, DefaultBackend, false)
  }

  /** `e.not`: built by the root with the callbacks swapped; the negated
      expectation's own `.not` is its parent. */
  function Not(e: Expectation): (n: Expectation)
    ensures n.value == e.value && n.negated != e.negated
    ensures n.backend.pass == e.backend.fail && n.backend.fail == e.backend.pass
  {
    Expectation(e.value, Backend(e.backend.fail, e.backend.pass), !e.negated)
  }

  /** Which of the expectation's two callbacks a matcher invokes. */
  datatype Callback = PassCallback | FailCallback

  /** What a matcher does: it invokes one callback, with a message or with
      none, or the host throws a `TypeError` before either is reached. */
  datatype Reaction = Called(callback: Callback, message: Option<string>) | HostTypeError

  /** The observable result of a matcher call under the expectation's
      callbacks. */
  datatype Outcome = Returned | Raised(message: Option<string>) | Delegated(id: nat, message: Option<string>) | TypeErrorRaised

  function HandlerFor(e: Expectation, c: Callback): Handler {
    if c.PassCallback? then e.backend.pass else e.backend.fail
  }

  function Perform(e: Expectation, r: Reaction): (o: Outcome)
    ensures r.HostTypeError? <==> o.TypeErrorRaised?
    ensures r.Called? ==> match HandlerFor(e, r.callback)
                          case Ignore => o == Returned
                          case Raise => o == Raised(r.message)
                          case Custom(id) => o == Delegated(id, r.message)
  {
    match r
    case HostTypeError => TypeErrorRaised
    case Called(c, msg) =>
      match HandlerFor(e, c)
      case Ignore => Returned
      case Raise => Raised(msg)
      case Custom(id) => Delegated(id, msg)
  }

  predicate Subject(h: Heap, e: Expectation) {
    Ready(h) && Valid(h, e.value)
  }

  /** The message every comparing matcher renders before deciding. */
  function Message(h: Heap, host: Host, e: Expectation, toDo: string, other: Value, customMsg: string): string
    requires Subject(h, e) && Valid(h, other)
  {
    GenerateMessage(h, host, e.value, e.Expr(), toDo, other, customMsg)
  }

  /** Calls `pass` when `holds` and `fail` otherwise, with the same message. */
  function Decide(holds: bool, message: string): (r: Reaction)
    ensures r.Called? && r.message == Some(message)
    ensures r.callback.PassCallback? <==> holds
  {
    Called(if holds then PassCallback else FailCallback, Some(message))
  }

  function ToEqual(h: Heap, host: Host, e: Expectation, val: Value, customMsg: string): (r: Reaction)
    requires Subject(h, e) && Valid(h, val)
    ensures r.Called? && r.message == Some(Message(h, host, e, "to equal", val, customMsg))
    ensures r.callback.PassCallback? <==> Eq(h, e.value, val, [])
  {
    Decide(Eq(h, e.value, val, []), Message(h, host, e, "to equal", val, customMsg))
  }

  /** `toNotEqual` defers to the `toEqual` of `e.not`. */
  function ToNotEqual(h: Heap, host: Host, e: Expectation, val: Value, customMsg: string): (r: Reaction)
    requires Subject(h, e) && Valid(h, val)
    ensures r.Called? && r.message == Some(Message(h, host, Not(e), "to equal", val, customMsg))
    ensures r.callback.PassCallback? <==> Eq(h, e.value, val, [])
  {
    ToEqual(h, host, Not(e), val, customMsg)
  }

  /** `toBe` compares with `===` and, as written, says "to equal". */
  function ToBe(h: Heap, host: Host, e: Expectation, val: Value, customMsg: string): (r: Reaction)
    requires Subject(h, e) && Valid(h, val)
    ensures r.Called? && r.message == Some(Message(h, host, e, "to equal", val, customMsg))
    ensures r.callback.PassCallback? <==> StrictEq(e.value, val)
  {
    Decide(StrictEq(e.value, val), Message(h, host, e, "to equal", val, customMsg))
  }

  function ToBeTruthy(h: Heap, host: Host, e: Expectation, customMsg: string): (r: Reaction)
    requires Subject(h, e)
    ensures r.Called? && r.message == Some(Message(h, host, e, "to be truthy", Undefined, customMsg))
    ensures r.callback.PassCallback? <==> Truthy(e.value)
  {
    Decide(Truthy(e.value), Message(h, host, e, "to be truthy", Undefined, customMsg))
  }

  /** `toBeFalsy`, also reachable as `toBeFalsey`. */
  function ToBeFalsy(h: Heap, host: Host, e: Expectation, customMsg: string): (r: Reaction)
    requires Subject(h, e)
    ensures r.Called? && r.message == Some(Message(h, host, e, "to be falsey", Undefined, customMsg))
    ensures r.callback.PassCallback? <==> !Truthy(e.value)
  {
    Decide(!Truthy(e.value), Message(h, host, e, "to be falsey", Undefined, customMsg))
  }

  /** `this.value > val`, that is `val < this.value`. */
  function ToBeGreaterThan(h: Heap, host: Host, e: Expectation, val: Value, customMsg: string): (r: Reaction)
    requires Subject(h, e) && Valid(h, val)
    ensures r.Called? && r.message == Some(Message(h, host, e, "to be greater than", val, customMsg))
    ensures r.callback.PassCallback? <==> Less(host, val, e.value)
  {
    Decide(Less(host, val, e.value), Message(h, host, e, "to be greater than", val, customMsg))
  }

  function ToBeLessThan(h: Heap, host: Host, e: Expectation, val: Value, customMsg: string): (r: Reaction)
    requires Subject(h, e) && Valid(h, val)
    ensures r.Called? && r.message == Some(Message(h, host, e, "to be less than", val, customMsg))
    ensures r.callback.PassCallback? <==> Less(host, e.value, val)
  {
    Decide(Less(host, e.value, val), Message(h, host, e, "to be less than", val, customMsg))
  }

  /** `typeof value !== 'undefined'`. */
  function ToBeDefined(h: Heap, host: Host, e: Expectation, customMsg: string): (r: Reaction)
    requires Subject(h, e)
    ensures r.Called? && r.message == Some(Message(h, host, e, "to be defined", Undefined, customMsg))
    ensures r.callback.PassCallback? <==> e.value != Undefined
  {
    Decide(!e.value.Undefined?, Message(h, host, e, "to be defined", Undefined, customMsg))
  }

  function ToBeUndefined(h: Heap, host: Host, e: Expectation, customMsg: string): (r: Reaction)
    requires Subject(h, e)
    ensures r.Called? && r.message == Some(Message(h, host, e, "to be undefined", Undefined, customMsg))
    ensures r.callback.PassCallback? <==> e.value == Undefined
  {
    Decide(e.value.Undefined?, Message(h, host, e, "to be undefined", Undefined, customMsg))
  }

  function ToBeNull(h: Heap, host: Host, e: Expectation, customMsg: string): (r: Reaction)
    requires Subject(h, e)
    ensures r.Called? && r.message == Some(Message(h, host, e, "to be null", Undefined, customMsg))
    ensures r.callback.PassCallback? <==> e.value == Null
  {
    Decide(e.value.Null?, Message(h, host, e, "to be null", Undefined, customMsg))
  }

  /** `String#indexOf(t, from)`: the first position at or after `from` where
      `t` occurs in `s`, or -1. */
  function SubstringIndex(s: string, t: string, from: nat): (r: int)
    ensures r == -1 || (from <= r && r + |t| <= |s|)
    decreases |s| - from
  {
    if from + |t| > |s| then -1
    else if s[from..from + |t|] == t then from
    else SubstringIndex(s, t, from + 1)
  }

  /** `Array#indexOf(val, from)`: strict equality, holes skipped. */
  function ArrayIndex(o: HeapObj, val: Value, from: nat): (r: int)
    requires o.ArrayObj?
    ensures r == -1 || (from <= r < o.length && HasIndex(o, r) && StrictEq(Elem(o, r), val))
    decreases o.length - from
  {
    if from >= o.length then -1
    else if HasIndex(o, from) && StrictEq(Elem(o, from), val) then from
    else ArrayIndex(o, val, from + 1)
  }

  /** The `for` loop over a string subject: some character, as a
      one-character string, `eq` to `val`. */
  function SomeCharEq(h: Heap, s: string, val: Value, i: nat): bool
    requires WfHeap(h) && Valid(h, val)
    decreases |s| - i
  {
    i < |s| && (Eq(h, Str([s[i]]), val, []) || SomeCharEq(h, s, val, i + 1))
  }

  /** The `for` loop over an array subject: some element, holes read as
      `undefined`, `eq` to `val`. */
  function SomeElemEq(h: Heap, a: Addr, val: Value, i: nat): bool
    requires WfHeap(h) && a in h && h[a].ArrayObj? && Valid(h, val)
    decreases h[a].length - i
  {
    i < h[a].length && (Eq(h, ElemAt(h, a, i), val, []) || SomeElemEq(h, a, val, i + 1))
  }

  function ElemAt(h: Heap, a: Addr, i: nat): (v: Value)
    requires WfHeap(h) && a in h && h[a].ArrayObj?
    ensures Valid(h, v) && v == Elem(h[a], i)
  {
    assert WfObj(h, h[a]);
    Elem(h[a], i)
  }

  /** The subjects that have an `indexOf` method and a `length`: strings,
      `String` wrappers and arrays. */
  predicate Searchable(h: Heap, v: Value)
    requires Valid(h, v)
  {
    v.Str? || (v.Ref? && (h[v.addr].StringObj? || h[v.addr].ArrayObj?))
  }

  /** The search of `toContain`: `indexOf` first, then the `eq` loop; None
      for a subject without an `indexOf` method, on which the host throws a
      `TypeError`. */
  function Search(h: Heap, host: Host, v: Value, val: Value): (r: Option<bool>)
    requires Ready(h) && Valid(h, v) && Valid(h, val)
    ensures r.None? <==> !Searchable(h, v)
  {
    if v.Str? || (v.Ref? && h[v.addr].StringObj?) then
      var s := if v.Str? then v.s else h[v.addr].s;
      Some(SubstringIndex(s, ToStringValue(h, host, val), 0) > -1 || SomeCharEq(h, s, val, 0))
    else if v.Ref? && h[v.addr].ArrayObj? then
      Some(ArrayIndex(h[v.addr], val, 0) > -1 || SomeElemEq(h, v.addr, val, 0))
    else
      None
  }

  /** `toContain` renders its message before searching. */
  function ToContain(h: Heap, host: Host, e: Expectation, val: Value, customMsg: string): (r: Reaction)
    requires Subject(h, e) && Valid(h, val)
    ensures r.HostTypeError? <==> !Searchable(h, e.value)
    ensures r.Called? ==> r.message == Some(Message(h, host, e, "to contain", val, customMsg))
    ensures r.Called? ==> (r.callback.PassCallback? <==> Search(h, host, e.value, val) == Some(true))
  {
    var message := Message(h, host, e, "to contain", val, customMsg);
    match Search(h, host, e.value, val)
    case None => HostTypeError
    case Some(found) => Decide(found, message)
  }

  /** What calling the subject of `toThrow` does: it returns, or it throws a
      value. The call itself is outside the model. */
  datatype Behaviour = Returns | Throws(thrown: Value)

  /** `expect(...).fail(why, what, customMsg)`. */
  function Fail(h: Heap, host: Host, e: Expectation, why: string, what: Value, customMsg: string): Reaction
    requires Subject(h, e) && Valid(h, what)
  {
    Called(FailCallback, Some(Message(h, host, e, why, what, customMsg)))
  }

  /** `expect(...).pass()`: `pass` with no message. */
  function Pass(): Reaction
  {
    Called(PassCallback, None)
  }

  /** The message `toThrow` expects: the string itself, or the `message` of
      an `Error` instance; anything else expects no particular message. */
  function ExpectedMessage(h: Heap, error: Value): (m: Value)
    requires Valid(h, error)
    ensures m.Undefined? || m.Str?
    ensures error.Str? ==> m == error
    ensures error.Ref? && IsError(h[error.addr]) ==> m == Str(h[error.addr].errorMessage.value)
    ensures !error.Str? && !(error.Ref? && IsError(h[error.addr])) ==> m == Undefined
  {
    if error.Str? then error
    else if error.Ref? && IsError(h[error.addr]) then MessageOf(h, error)
    else Undefined
  }

  function ToThrow(h: Heap, host: Host, e: Expectation, error: Value, behaviour: Behaviour, customMsg: string): (r: Reaction)
    requires Subject(h, e) && Valid(h, error)
    requires behaviour.Throws? ==> Valid(h, behaviour.thrown)
    ensures r.Called?
    ensures r.callback.PassCallback? <==> r.message.None?
    ensures r.callback.PassCallback? ==>
      && e.value.Func? && behaviour.Throws? && Truthy(behaviour.thrown)
      && (Truthy(ExpectedMessage(h, error)) ==> StrictEq(MessageOf(h, behaviour.thrown), ExpectedMessage(h, error)))
  {
    var expected := ExpectedMessage(h, error);
    if !e.value.Func? then
      Fail(h, host, e, "to be a function", Undefined, "")
    else if !behaviour.Throws? || !Truthy(behaviour.thrown) then
      Fail(h, host, e, "to throw an exception", Undefined, customMsg)
    else if Truthy(expected) && !StrictEq(MessageOf(h, behaviour.thrown), expected) then
      Fail(h, host, e, "to throw", expected, customMsg)
    else
      Called(PassCallback, None)
  }
}

=== FILE: formatting.dfy ===
/** The diagnostic renderer `formatValue(value, ignoreUndefined, stack)` of
    expectations.js, as the code is written. The array branch hands its own
    stack to the recursive calls and then pushes every element onto it, so the
    renderer returns the grown stack with the text. */
module Formatting {
  import opened JsValues

  /** Depth at which arrays and objects stop being expanded. */
  const MaxDepth: nat := 10

  datatype Rendered = Rendered(text: string, stack: seq<Value>)

  datatype Parts = Parts(texts: seq<string>, stack: seq<Value>)

  /** An array element that is itself an array sits at a smaller address. */
  predicate InnerArrayBelow(h: Heap, a: Addr, v: Value) {
    v.Ref? && v.addr in h && h[v.addr].ArrayObj? ==> v.addr < a
  }

  /** The first element of array `a`, when it is an array, sits below `a`. */
  predicate NestsDownward(h: Heap, a: Addr)
    requires a in h
  {
    h[a].ArrayObj? && 0 in h[a].elems ==> InnerArrayBelow(h, a, h[a].elems[0])
  }

  /** Following element 0 from array to array never comes back, stated by
      numbering the heap so that an array's first element, when an array,
      sits at a smaller address. The renderer recurses into element 0 before
      it pushes anything, so on such a cycle it never terminates; every other
      cycle grows the stack by one per lap and stops at the depth limit. */
  predicate ArrayNestingAcyclic(h: Heap) {
    forall a :: a in h ==> NestsDownward(h, a)
  }

  predicate Ready(h: Heap) {
    WfHeap(h) && ArrayNestingAcyclic(h)
  }

  function Budget(stack: seq<Value>): nat {
    if |stack| < MaxDepth then MaxDepth - |stack| else 0
  }

  function Rank(h: Heap, v: Value): nat {
    if v.Ref? && v.addr in h && h[v.addr].ArrayObj? then v.addr + 1 else 0
  }

  /** `stack.indexOf(v)`: the first position holding a value `=== v`, or -1. */
  function IndexOf(stack: seq<Value>, v: Value, from: nat): (r: int)
    requires from <= |stack|
    ensures r == -1 || from <= r < |stack|
    decreases |stack| - from
  {
    if from == |stack| then -1
    else if StrictEq(stack[from], v) then from
    else IndexOf(stack, v, from + 1)
  }

  /** `isOnStack`: found, but not first found in the last slot. */
  predicate OnStack(v: Value, stack: seq<Value>) {
    var i := IndexOf(stack, v, 0);
    i > -1 && i != |stack| - 1
  }

  function Join(parts: seq<string>, sep: string): string {
    if |parts| == 0 then ""
    else if |parts| == 1 then parts[0]
    else parts[0] + sep + Join(parts[1..], sep)
  }

  predicate IsError(o: HeapObj) {
    o.PlainObj? && o.errorMessage.Some?
  }

  function Format(h: Heap, host: Host, v: Value, ignoreUndefined: bool, stack: seq<Value>): (r: Rendered)
    requires Ready(h) && Valid(h, v)
    ensures stack <= r.stack
    ensures !(v.Ref? && h[v.addr].ArrayObj?) ==> r.stack == stack
    decreases Budget(stack), Rank(h, v), 1, 0
  {
    match v
    case Undefined => Rendered(if ignoreUndefined then "" else "undefined", stack)
    case Func(_, name) => Rendered("function " + name + "(){}", stack)
    case Str(s) => Rendered("\"" + s + "\"", stack)
    case Null => Rendered("null", stack)
    case Bool(b) => Rendered(BoolText(b), stack)
    case Number(n) => Rendered(host.numberText(n), stack)
    case Ref(a) =>
      match h[a]
      case DateObj(t) => Rendered("[Date " + host.utcText(t) + "]", stack)
      case RegExpObj(_, _, _, _) => Rendered(RegExpText(h[a]), stack)
      case ArrayObj(_, _) =>
        if !OnStack(v, stack) && |stack| < MaxDepth then
          var parts := FormatElems(h, host, a, 0, stack);
          Rendered("[" + Join(parts.texts, ", ") + "]", parts.stack)
        else
          Rendered("[" + host.objectText(a) + "]", stack)
      case _ =>
        var text := ObjectText(h, host, a);
        if |stack| < MaxDepth then
          if text != "[object Object]" then
            Rendered(if IsError(h[a]) then "[Error: " + text + "]" else "[" + text + "]", stack)
          else if OnStack(v, stack) then
            Rendered("[Circular]", stack)
          else
            Rendered("{" + Join(FormatProps(h, host, a, 0, stack), ", ") + "}", stack)
        else
          Rendered(text, stack)
  }

  /** The `for` loop over indices `i ..` of array `a`: each element is
      rendered with the current stack, which is then extended by the element. */
  function FormatElems(h: Heap, host: Host, a: Addr, i: nat, stack: seq<Value>): (r: Parts)
    requires Ready(h) && a in h && h[a].ArrayObj? && i <= h[a].length
    requires i == 0 ==> |stack| < MaxDepth
    ensures stack <= r.stack
    ensures |r.texts| == h[a].length - i
    ensures i < h[a].length ==> |stack| < |r.stack|
    decreases if i == 0 then Budget(stack) else Budget(stack) + 1, if i == 0 then a + 1 else 0, 0, h[a].length - i
  {
    if i == h[a].length then Parts([], stack)
    else
      var x := Elem(h[a], i);
      assert Valid(h, x) && (i == 0 ==> Rank(h, x) <= a) by {
        assert WfObj(h, h[a]) && NestsDownward(h, a);
      }
      var first := Format(h, host, x, false, stack);
      var rest := FormatElems(h, host, a, i + 1, first.stack + [x]);
      Parts([first.text] + rest.texts, rest.stack)
  }

  /** `Object.keys(value).map(...)` from key position `i` on: each entry is
      rendered with a fresh stack `stack.concat(value)`. Only ordinary objects
      have keys here. */
  function FormatProps(h: Heap, host: Host, a: Addr, i: nat, stack: seq<Value>): (r: seq<string>)
    requires Ready(h) && a in h && |stack| < MaxDepth
    ensures h[a].PlainObj? && i <= |h[a].keys| ==> |r| == |h[a].keys| - i
    decreases Budget(stack), 0, 0, if h[a].PlainObj? && i <= |h[a].keys| then |h[a].keys| - i else 0
  {
    if !h[a].PlainObj? || i >= |h[a].keys| then []
    else
      var k := h[a].keys[i];
      assert k in h[a].props && Valid(h, h[a].props[k]) by {
        assert WfObj(h, h[a]);
      }
      var entry := Format(h, host, h[a].props[k], false, stack + [Ref(a)]);
      ["\"" + k + "\": " + entry.text] + FormatProps(h, host, a, i + 1, stack)
  }

  /** `formatValue(value, ignoreUndefined)` called without a stack. */
  function FormatValue(h: Heap, host: Host, v: Value, ignoreUndefined: bool): string
    requires Ready(h) && Valid(h, v)
  {
    Format(h, host, v, ignoreUndefined, []).text
  }
}

=== FILE: formatting_laws.dfy ===
/** What the renderer promises: the fixed renderings of primitives, the
    depth cut-off, the one-slot blindness of its cycle check and what that
    does to a self-referencing object, and a reference rendering for arrays of
    primitives. */
module FormattingLaws {
  import opened JsValues
  import opened Formatting

  /** Undefined renders empty or as `undefined`; strings are quoted without
      escaping; `null` and functions have fixed forms; none touch the stack. */
  lemma FormatPrimitives(h: Heap, host: Host, v: Value, ignoreUndefined: bool, stack: seq<Value>)
    requires Ready(h) && Valid(h, v) && !v.Ref?
    ensures var r := Format(h, host, v, ignoreUndefined, stack);
      && r.stack == stack
      && (v.Undefined? ==> r.text == (if ignoreUndefined then "" else "undefined"))
      && (v.Str? ==> r.text == "\"" + v.s + "\"")
      && (v.Null? ==> r.text == "null")
      && (v.Func? ==> r.text == "function " + v.name + "(){}")
  {
  }

  /** At depth 10 or more, arrays and ordinary objects are not expanded: they
      render through the host's own string conversion. */
  lemma FormatDepthLimit(h: Heap, host: Host, a: Addr, ignoreUndefined: bool, stack: seq<Value>)
    requires Ready(h) && a in h && |stack| >= MaxDepth
    requires h[a].ArrayObj? || h[a].PlainObj?
    ensures var r := Format(h, host, Ref(a), ignoreUndefined, stack);
      && r.stack == stack
      && r.text == (if h[a].ArrayObj? then "[" + host.objectText(a) + "]" else host.objectText(a))
  {
  }

  lemma {:induction false} IndexOfFinds(stack: seq<Value>, v: Value, from: nat)
    requires from <= |stack|
    ensures var i := IndexOf(stack, v, from);
      && (i == -1 <==> forall j :: from <= j < |stack| ==> !StrictEq(stack[j], v))
      && (i != -1 ==> StrictEq(stack[i], v) && forall j :: from <= j < i ==> !StrictEq(stack[j], v))
    decreases |stack| - from
  {
    if from < |stack| && !StrictEq(stack[from], v) {
      IndexOfFinds(stack, v, from + 1);
    }
  }

  /** The cycle check looks at every slot but the last: a value counts as on
      the stack exactly when it occurs before the final position. */
  lemma OnStackIgnoresLastSlot(stack: seq<Value>, v: Value)
    ensures OnStack(v, stack) <==> exists j :: 0 <= j < |stack| - 1 && StrictEq(stack[j], v)
  {
    IndexOfFinds(stack, v, 0);
  }

  /** A reference is on `stack + [it]` exactly when it was on `stack` already. */
  lemma OnStackAfterPush(stack: seq<Value>, a: Addr)
    ensures OnStack(Ref(a), stack + [Ref(a)]) <==> Ref(a) in stack
  {
    var s := stack + [Ref(a)];
    OnStackIgnoresLastSlot(s, Ref(a));
    if Ref(a) in stack {
      var j :| 0 <= j < |stack| && stack[j] == Ref(a);
      assert s[j] == Ref(a);
    }
  }

  /** The key mapping renders key position `n` as the quoted key, `: `, and
      the key's value rendered with the object pushed on a copy of the stack. */
  lemma {:induction false} FormatPropsEntries(h: Heap, host: Host, a: Addr, i: nat, stack: seq<Value>)
    requires Ready(h) && a in h && h[a].PlainObj? && i <= |h[a].keys| && |stack| < MaxDepth
    ensures WfObj(h, h[a])
    ensures var es := FormatProps(h, host, a, i, stack);
      forall n :: i <= n < |h[a].keys| ==>
        es[n - i] == "\"" + h[a].keys[n] + "\": "
                     + Format(h, host, h[a].props[h[a].keys[n]], false, stack + [Ref(a)]).text
    decreases |h[a].keys| - i
  {
    assert WfObj(h, h[a]);
    if i < |h[a].keys| {
      FormatPropsEntries(h, host, a, i + 1, stack);
    }
  }

  /** An ordinary object whose `toString` gives `[object Object]`, not on the
      stack and below the depth limit, renders as braces around one entry per
      own key, in key order, each value rendered with the object pushed; the
      stack is left as it was. */
  lemma FormatObjectExpands(h: Heap, host: Host, a: Addr, ignoreUndefined: bool, stack: seq<Value>)
    requires Ready(h) && a in h && h[a].PlainObj? && host.objectText(a) == "[object Object]"
    requires !OnStack(Ref(a), stack) && |stack| < MaxDepth
    ensures WfObj(h, h[a])
    ensures var es := FormatProps(h, host, a, 0, stack);
      && Format(h, host, Ref(a), ignoreUndefined, stack) == Rendered("{" + Join(es, ", ") + "}", stack)
      && |es| == |h[a].keys|
      && forall n :: 0 <= n < |es| ==>
           es[n] == "\"" + h[a].keys[n] + "\": "
                    + Format(h, host, h[a].props[h[a].keys[n]], false, stack + [Ref(a)]).text
  {
    assert WfObj(h, h[a]);
    var es := FormatProps(h, host, a, 0, stack);
    FormatObjectUnfolds(h, host, a, ignoreUndefined, stack);
    FormatPropsEntries(h, host, a, 0, stack);
    forall n | 0 <= n < |es|
      ensures es[n] == "\"" + h[a].keys[n] + "\": "
                       + Format(h, host, h[a].props[h[a].keys[n]], false, stack + [Ref(a)]).text
    {
      assert es[n] == es[n - 0];
    }
  }

  lemma FormatObjectUnfolds(h: Heap, host: Host, a: Addr, ignoreUndefined: bool, stack: seq<Value>)
    requires Ready(h) && a in h && h[a].PlainObj? && host.objectText(a) == "[object Object]"
    requires !OnStack(Ref(a), stack) && |stack| < MaxDepth
    ensures Format(h, host, Ref(a), ignoreUndefined, stack)
         == Rendered("{" + Join(FormatProps(h, host, a, 0, stack), ", ") + "}", stack)
  {
    assert ObjectText(h, host, a) == "[object Object]";
  }

  /** Below the depth limit an ordinary object is expanded only when its
      `toString` gives `[object Object]`: otherwise it renders as that text in
      brackets, prefixed `Error: ` for an error; and an object already on the
      stack renders as `[Circular]`. */
  lemma FormatObjectNotExpanded(h: Heap, host: Host, a: Addr, ignoreUndefined: bool, stack: seq<Value>)
    requires Ready(h) && a in h && h[a].PlainObj? && |stack| < MaxDepth
    ensures var t := host.objectText(a);
      var r := Format(h, host, Ref(a), ignoreUndefined, stack);
      && r.stack == stack
      && (t != "[object Object]" ==> r.text == (if IsError(h[a]) then "[Error: " + t + "]" else "[" + t + "]"))
      && (t == "[object Object]" && OnStack(Ref(a), stack) ==> r.text == "[Circular]")
  {
  }

  lemma SelfObjectEntries(h: Heap, host: Host, ctor: Option<nat>, a: Addr, stack: seq<Value>)
    requires Ready(h) && a in h && h[a] == SelfObject(ctor, a) && |stack| < MaxDepth
    ensures FormatProps(h, host, a, 0, stack)
         == ["\"self\": " + Format(h, host, Ref(a), false, stack + [Ref(a)]).text]
  {
    assert FormatProps(h, host, a, 1, stack) == [];
    assert h[a].keys[0] == "self" && h[a].props["self"] == Ref(a);
    assert "\"" + "self" + "\": " == "\"self\": ";
    var t := Format(h, host, Ref(a), false, stack + [Ref(a)]).text;
    assert "\"" + "self" + "\": " + t == "\"self\": " + t;
  }

  lemma SelfObjectExpands(h: Heap, host: Host, ctor: Option<nat>, a: Addr, stack: seq<Value>)
    requires Ready(h) && a in h && h[a] == SelfObject(ctor, a) && |stack| + 1 < MaxDepth
    requires host.objectText(a) == "[object Object]" && !OnStack(Ref(a), stack)
    ensures Format(h, host, Ref(a), false, stack).text
         == "{\"self\": " + Format(h, host, Ref(a), false, stack + [Ref(a)]).text + "}"
  {
    SelfObjectEntries(h, host, ctor, a, stack);
  }

  /** `o.self = o` renders one extra nested level before the circular marker,
      because the freshly pushed object sits in the ignored last slot. */
  lemma FormatSelfReference(h: Heap, host: Host, ctor: Option<nat>, a: Addr)
    requires Ready(h) && a in h && h[a] == SelfObject(ctor, a)
    requires host.objectText(a) == "[object Object]"
    ensures FormatValue(h, host, Ref(a), false) == "{\"self\": {\"self\": [Circular]}}"
  {
    var o := Ref(a);
    OnStackAfterPush([], a);
    OnStackAfterPush([o], a);
    assert [] + [o] == [o] && [o] + [o] == [o, o];
    var inner := Format(h, host, o, false, [o, o]).text;
    assert inner == "[Circular]";
    SelfObjectExpands(h, host, ctor, a, [o]);
    var middle := Format(h, host, o, false, [o]).text;
    assert middle == "{\"self\": [Circular]}";
    SelfObjectExpands(h, host, ctor, a, []);
  }

  /** The rendering of a primitive array element (ignoring nothing). */
  function ScalarText(host: Host, v: Value): string
    requires !v.Ref?
  {
    match v
    case Undefined => "undefined"
    case Null => "null"
    case Bool(b) => if b then "true" else "false"
    case Number(n) => host.numberText(n)
    case Str(s) => "\"" + s + "\""
    case Func(_, name) => "function " + name + "(){}"
  }

  predicate FlatArray(o: HeapObj)
    requires o.ArrayObj?
  {
    forall j :: 0 <= j < o.length ==> !Elem(o, j).Ref?
  }

  function ElemsFrom(o: HeapObj, i: nat): seq<Value>
    requires o.ArrayObj? && i <= o.length
  {
    seq(o.length - i, k requires 0 <= k < o.length - i => Elem(o, i + k))
  }

  function TextsFrom(host: Host, o: HeapObj, i: nat): seq<string>
    requires o.ArrayObj? && FlatArray(o) && i <= o.length
  {
    seq(o.length - i, k requires 0 <= k < o.length - i => ScalarText(host, Elem(o, i + k)))
  }

  lemma {:induction false} FormatElemsFlat(h: Heap, host: Host, a: Addr, i: nat, stack: seq<Value>)
    requires Ready(h) && a in h && h[a].ArrayObj? && FlatArray(h[a]) && i <= h[a].length
    requires i == 0 ==> |stack| < MaxDepth
    ensures FormatElems(h, host, a, i, stack) == Parts(TextsFrom(host, h[a], i), stack + ElemsFrom(h[a], i))
    decreases h[a].length - i
  {
    var o := h[a];
    if i == o.length {
      assert ElemsFrom(o, i) == [];
    } else {
      var x := Elem(o, i);
      assert WfObj(h, o);
      FormatPrimitives(h, host, x, false, stack);
      assert Format(h, host, x, false, stack) == Rendered(ScalarText(host, x), stack);
      FormatElemsFlat(h, host, a, i + 1, stack + [x]);
      assert TextsFrom(host, o, i) == [ScalarText(host, x)] + TextsFrom(host, o, i + 1);
      assert ElemsFrom(o, i) == [x] + ElemsFrom(o, i + 1);
      assert stack + [x] + ElemsFrom(o, i + 1) == stack + ElemsFrom(o, i);
    }
  }

  /** An array of primitives, not on the stack and below the depth limit,
      renders as its elements' renderings (holes as `undefined`) joined by
      `, ` in brackets, and leaves every element pushed on the stack. */
  lemma FormatFlatArray(h: Heap, host: Host, a: Addr, ignoreUndefined: bool, stack: seq<Value>)
    requires Ready(h) && a in h && h[a].ArrayObj? && FlatArray(h[a])
    requires !OnStack(Ref(a), stack) && |stack| < MaxDepth
    ensures Format(h, host, Ref(a), ignoreUndefined, stack)
         == Rendered("[" + Join(TextsFrom(host, h[a], 0), ", ") + "]", stack + ElemsFrom(h[a], 0))
  {
    FormatElemsFlat(h, host, a, 0, stack);
  }
}

=== FILE: js.dfy ===
/** The slice of JavaScript's value world that the assertion library inspects:
    primitive values, a finite heap of objects, the `[[Class]]` tag, and the
    host conversions the library calls but does not define. */
module JsValues {

  datatype Option<+T> = None | Some(value: T)

  type Addr = nat

  type PosReal = r: real | r > 0.0 witness 1.0

  /** An IEEE double, abstracted to what the library can observe: NaN, the two
      signed zeros, a signed non-zero finite magnitude, and the two infinities. */
  datatype Num =
    | NaN
    | Zero(negative: bool)
    | Finite(negative: bool, magnitude: PosReal)
    | Infinity(negative: bool)

  /** A JavaScript value. Functions carry an identity and their `name`;
      the model assumes the `name` is determined by the `id`, so comparing
      whole `Func` values, as `===` does here, is comparing identities.
      Everything else of object type lives in
      the heap behind `Ref`. */
  datatype Value =
    | Undefined
    | Null
    | Bool(b: bool)
    | Number(n: Num)
    | Str(s: string)
    | Func(id: nat, name: string)
    | Ref(addr: Addr)
  {
    /** `v == null` in JavaScript's loose equality. */
    predicate IsNullish() {
      Undefined? || Null?
    }
  }

  /** The heap objects the library distinguishes. `ArrayObj` holds only the
      indices that are present, so holes of a sparse array are absent keys.
      `PlainObj` is any other ordinary object: `cls` is its `[[Class]]` name
      ("Object", "Error", "Arguments", ...), `ctor` the identity of its
      `constructor` (None when it has none), `keys` its own enumerable keys in
      enumeration order, and `errorMessage` the `message` of an `Error`
      instance (None when it is not one). */
  datatype HeapObj =
    | ArrayObj(length: nat, elems: map<nat, Value>)
    | PlainObj(cls: string, ctor: Option<nat>, keys: seq<string>, props: map<string, Value>, errorMessage: Option<string>)
    | DateObj(time: Num)
    | RegExpObj(source: string, global: bool, ignoreCase: bool, multiline: bool)
    | StringObj(s: string)
    | NumberObj(n: Num)
    | BooleanObj(b: bool)

  type Heap = map<Addr, HeapObj>

  /** Host conversions the library calls but does not define; they are left
      uninterpreted: `Number#toString`, `Date#toUTCString`, `Function#toString`
      (by function identity), `objectText` for the `toString` of arrays,
      ordinary objects (including custom ones) and dates (`Date#toString`,
      which `String(date)` calls), and `x < y` for operands that are not
      both numbers or both strings (it converts them through `valueOf`,
      `toString` and number parsing). */
  datatype Host = Host(
    numberText: Num -> string,
    utcText: Num -> string,
    functionText: nat -> string,
    objectText: Addr -> string,
    mixedLess: (Value, Value) -> bool)

  /** The `[[Class]]` tag that `Object.prototype.toString` reports. */
  datatype Class =
    | UndefinedClass
    | NullClass
    | StringClass
    | NumberClass
    | BooleanClass
    | DateClass
    | RegExpClass
    | ArrayClass
    | FunctionClass
    | ObjectClass(name: string)

  predicate Valid(h: Heap, v: Value) {
    v.Ref? ==> v.addr in h
  }

  predicate WfObj(h: Heap, o: HeapObj) {
    match o
    case ArrayObj(len, elems) =>
      forall j :: j in elems ==> j < len && Valid(h, elems[j])
    case PlainObj(_, _, keys, props, _) =>
      && (forall i, j :: 0 <= i < j < |keys| ==> keys[i] != keys[j])
      && (forall i :: 0 <= i < |keys| ==> keys[i] in props)
      && (forall k :: k in props ==> k in keys && Valid(h, props[k]))
      && !HasIsEqualHook(props)
    case _ => true
  }

  /** An own `isEqual` key holding a function: `eq` would hand the comparison
      to it. Modelled objects carry no such hook. */
  predicate HasIsEqualHook(props: map<string, Value>) {
    "isEqual" in props && props["isEqual"].Func?
  }

  /** The ordinary object `{self: o}` stored at `self`, whose one key holds
      the object itself. */
  function SelfObject(ctor: Option<nat>, self: Addr): HeapObj {
    PlainObj("Object", ctor, ["self"], map["self" := Ref(self)], None)
  }

  /** Every object is well formed and every reference it holds is allocated. */
  predicate WfHeap(h: Heap) {
    forall a :: a in h ==> WfObj(h, h[a])
  }

  /** The element at index `j`, `undefined` for a hole or an index past the end. */
  function Elem(o: HeapObj, j: nat): Value
    requires o.ArrayObj?
  {
    if j in o.elems then o.elems[j] else Undefined
  }

  /** `j in a`: the index is present (not a hole). */
  predicate HasIndex(o: HeapObj, j: nat)
    requires o.ArrayObj?
  {
    j in o.elems
  }

  /** `typeof v === 'object'` for a non-null value. */
  predicate IsObject(v: Value) {
    v.Ref?
  }

  function ClassOf(h: Heap, v: Value): Class
    requires Valid(h, v)
  {
    match v
    case Undefined => UndefinedClass
    case Null => NullClass
    case Bool(_) => BooleanClass
    case Number(_) => NumberClass
    case Str(_) => StringClass
    case Func(_, _) => FunctionClass
    case Ref(a) =>
      match h[a]
      case ArrayObj(_, _) => ArrayClass
      case PlainObj(cls, _, _, _, _) => ObjectClass(cls)
      case DateObj(_) => DateClass
      case RegExpObj(_, _, _, _) => RegExpClass
      case StringObj(_) => StringClass
      case NumberObj(_) => NumberClass
      case BooleanObj(_) => BooleanClass
  }

  /** JavaScript's numeric `==` (and `===`) on two numbers: NaN equals
      nothing, and the two zeros are equal. */
  predicate NumEquals(x: Num, y: Num) {
    !x.NaN? && !y.NaN? && (x == y || (x.Zero? && y.Zero?))
  }

  function RealOf(x: Num): real
    requires x.Zero? || x.Finite?
  {
    var m: real := if x.Zero? then 0.0 else x.magnitude;
    if x.Finite? && x.negative then -m else m
  }

  /** JavaScript's `x < y` on two numbers. */
  predicate NumLess(x: Num, y: Num) {
    if x.NaN? || y.NaN? then false
    else if x.Infinity? then x.negative && !(y.Infinity? && y.negative)
    else if y.Infinity? then !y.negative
    else RealOf(x) < RealOf(y)
  }

  /** `x < y` on two strings: the first differing character decides, and a
      proper prefix is smaller. */
  predicate StrLess(x: string, y: string) {
    if |x| == 0 then |y| > 0
    else if |y| == 0 then false
    else if x[0] != y[0] then x[0] < y[0]
    else StrLess(x[1..], y[1..])
  }

  /** The relational `x < y`. */
  predicate Less(host: Host, x: Value, y: Value) {
    if x.Number? && y.Number? then NumLess(x.n, y.n)
    else if x.Str? && y.Str? then StrLess(x.s, y.s)
    else host.mixedLess(x, y)
  }

  /** `1 / x`. */
  function Reciprocal(x: Num): Num {
    match x
    case NaN => NaN
    case Zero(neg) => Infinity(neg)
    case Finite(neg, m) => Finite(neg, 1.0 / m)
    case Infinity(neg) => Zero(neg)
  }

  /** Strict equality `a === b`. */
  predicate StrictEq(a: Value, b: Value) {
    if a.Number? && b.Number? then NumEquals(a.n, b.n) else a == b
  }

  /** `!!v`. Every object, boxed `false` and boxed `0` included, is truthy. */
  predicate Truthy(v: Value) {
    match v
    case Undefined => false
    case Null => false
    case Bool(b) => b
    case Number(n) => !n.NaN? && !n.Zero?
    case Str(s) => |s| > 0
    case Func(_, _) => true
    case Ref(_) => true
  }

  /** `String(v)` for a value of class String. */
  function StringOf(h: Heap, v: Value): string
    requires Valid(h, v) && ClassOf(h, v) == StringClass
  {
    if v.Str? then v.s else h[v.addr].s
  }

  /** `+v` for a value of class Number. */
  function NumberOf(h: Heap, v: Value): Num
    requires Valid(h, v) && ClassOf(h, v) == NumberClass
  {
    if v.Number? then v.n else h[v.addr].n
  }

  function BoolNum(b: bool): Num {
    if b then Finite(false, 1.0) else Zero(false)
  }

  /** `+v` for a value of class Date or Boolean: the time value or 0/1. */
  function TimeOrBoolOf(h: Heap, v: Value): Num
    requires Valid(h, v) && (ClassOf(h, v) == DateClass || ClassOf(h, v) == BooleanClass)
  {
    if v.Bool? then BoolNum(v.b)
    else if h[v.addr].DateObj? then h[v.addr].time
    else BoolNum(h[v.addr].b)
  }

  function BoolText(b: bool): string {
    if b then "true" else "false"
  }

  /** `RegExp#toString` for the flags the model keeps. */
  function RegExpText(o: HeapObj): string
    requires o.RegExpObj?
  {
    "/" + o.source + "/" + (if o.global then "g" else "") + (if o.ignoreCase then "i" else "")
      + (if o.multiline then "m" else "")
  }

  /** `v.toString()` for a heap object: a wrapper gives its primitive's text,
      a regex its `RegExp#toString`, and any other object the host's text. */
  function ObjectText(h: Heap, host: Host, a: Addr): string
    requires a in h
  {
    match h[a]
    case StringObj(s) => s
    case NumberObj(n) => host.numberText(n)
    case BooleanObj(b) => BoolText(b)
    case RegExpObj(_, _, _, _) => RegExpText(h[a])
    case _ => host.objectText(a)
  }

  /** `String(v)` for any value, as `String#indexOf` converts its argument. */
  function ToStringValue(h: Heap, host: Host, v: Value): string
    requires Valid(h, v)
  {
    match v
    case Undefined => "undefined"
    case Null => "null"
    case Bool(b) => BoolText(b)
    case Number(n) => host.numberText(n)
    case Str(s) => s
    case Func(id, _) => host.functionText(id)
    case Ref(a) => ObjectText(h, host, a)
  }

  /** `v.message`: an Error's message, an ordinary object's own `message`
      property, and `undefined` otherwise. */
  function MessageOf(h: Heap, v: Value): Value
    requires Valid(h, v)
  {
    if v.Ref? && h[v.addr].PlainObj? then
      match h[v.addr].errorMessage
      case Some(m) => Str(m)
      case None => if "message" in h[v.addr].props then h[v.addr].props["message"] else Undefined
    else Undefined
  }
}

=== FILE: matcher_laws.dfy ===
/** What the matchers promise: each invokes `pass` exactly when its claim
    holds, negation swaps the handler and nothing else, the default callbacks
    throw exactly for a failed assertion, and the behaviours the library
    documents for individual matchers. */
module MatcherLaws {
  import opened JsValues
  import opened Equality
  import opened Formatting
  import opened Messages
  import opened MessagesLaws
  import opened Expectations
  import opened Matchers

  lemma {:induction false} SubstringIndexFinds(s: string, t: string, from: nat)
    ensures SubstringIndex(s, t, from) > -1
        <==> exists i :: from <= i && OccursAt(s, t, i)
    decreases |s| - from
  {
    if from + |t| > |s| {
      assert forall i :: from <= i ==> !OccursAt(s, t, i);
    } else if s[from..from + |t|] == t {
      assert OccursAt(s, t, from);
    } else {
      SubstringIndexFinds(s, t, from + 1);
      if exists i :: from <= i && OccursAt(s, t, i) {
        var i :| from <= i && OccursAt(s, t, i);
        assert i != from;
      }
    }
  }

  lemma {:induction false} ArrayIndexFinds(o: HeapObj, x: Value, from: nat)
    requires o.ArrayObj?
    ensures ArrayIndex(o, x, from) > -1
        <==> exists j :: from <= j < o.length && HasIndex(o, j) && StrictEq(Elem(o, j), x)
    decreases o.length - from
  {
    if from < o.length && !(HasIndex(o, from) && StrictEq(Elem(o, from), x)) {
      ArrayIndexFinds(o, x, from + 1);
      if exists j :: from <= j < o.length && HasIndex(o, j) && StrictEq(Elem(o, j), x) {
        var j :| from <= j < o.length && HasIndex(o, j) && StrictEq(Elem(o, j), x);
        assert j != from;
      }
    }
  }

  lemma {:induction false} SomeCharEqFinds(h: Heap, s: string, x: Value, i: nat)
    requires WfHeap(h) && Valid(h, x)
    ensures SomeCharEq(h, s, x, i) <==> exists k :: i <= k < |s| && Eq(h, Str([s[k]]), x, [])
    decreases |s| - i
  {
    if i < |s| && !Eq(h, Str([s[i]]), x, []) {
      SomeCharEqFinds(h, s, x, i + 1);
      if exists k :: i <= k < |s| && Eq(h, Str([s[k]]), x, []) {
        var k :| i <= k < |s| && Eq(h, Str([s[k]]), x, []);
        assert k != i;
      }
    }
  }

  lemma {:induction false} SomeElemEqFinds(h: Heap, a: Addr, x: Value, i: nat)
    requires WfHeap(h) && a in h && h[a].ArrayObj? && Valid(h, x)
    ensures SomeElemEq(h, a, x, i) <==> exists j :: i <= j < h[a].length && Eq(h, ElemAt(h, a, j), x, [])
    decreases h[a].length - i
  {
    if i < h[a].length && !Eq(h, ElemAt(h, a, i), x, []) {
      SomeElemEqFinds(h, a, x, i + 1);
      if exists j :: i <= j < h[a].length && Eq(h, ElemAt(h, a, j), x, []) {
        var j :| i <= j < h[a].length && Eq(h, ElemAt(h, a, j), x, []);
        assert j != i;
      }
    }
  }

  /** The search of `toContain` finds the item exactly when it occurs in
      the subject: as a substring of a string subject (after conversion to a
      string) or as a present element `===` to it, or as a character or
      element `eq` to it. */
  lemma SearchMeaning(h: Heap, host: Host, v: Value, x: Value)
    requires Ready(h) && Valid(h, v) && Valid(h, x) && Searchable(h, v)
    ensures Search(h, host, v, x) == Some(Contained(h, host, v, x))
  {
    if v.Str? || (v.Ref? && h[v.addr].StringObj?) {
      var s := if v.Str? then v.s else h[v.addr].s;
      var t := ToStringValue(h, host, x);
      SubstringIndexFinds(s, t, 0);
      SomeCharEqFinds(h, s, x, 0);
      assert HasSubstring(s, t) <==> SubstringIndex(s, t, 0) > -1;
      assert Contained(h, host, v, x) == StringContains(h, host, s, x);
    } else {
      ArrayIndexFinds(h[v.addr], x, 0);
      SomeElemEqFinds(h, v.addr, x, 0);
    }
  }

  /** Every matcher reaches a callback exactly when its claim is decided,
      and the handler it invokes is the expectation's `pass` when the claim
      holds and its `fail` otherwise. */
  lemma RunFollowsClaim(h: Heap, host: Host, e: Expectation, m: Matcher)
    requires Subject(h, e) && Args(h, m)
    ensures Run(h, host, e, m).HostTypeError? <==> Claim(h, host, e.value, m).None?
    ensures Run(h, host, e, m).Called? ==>
      Invoked(h, host, e, m) == if Claim(h, host, e.value, m) == Some(true) then e.backend.pass else e.backend.fail
  {
    if m.Contains? && Searchable(h, e.value) {
      SearchMeaning(h, host, e.value, m.item);
    }
  }

  /** `e.not.not` is `e` again. */
  lemma NotNot(e: Expectation)
    ensures Not(Not(e)) == e
    ensures Not(NewExpect(e.value, None)).Expr() == "not "
  {
  }

  /** Negation decides the same claim and invokes the other callback: what
      `pass` would have done on `e`, `fail` does on `e.not`, and the host's
      `TypeError` is unaffected. */
  lemma NegationSwapsHandler(h: Heap, host: Host, e: Expectation, m: Matcher)
    requires Subject(h, e) && Args(h, m)
    ensures Run(h, host, Not(e), m).HostTypeError? <==> Run(h, host, e, m).HostTypeError?
    ensures Run(h, host, e, m).Called? ==>
      Invoked(h, host, Not(e), m) == if Invoked(h, host, e, m) == e.backend.pass then e.backend.fail else e.backend.pass
  {
    RunFollowsClaim(h, host, e, m);
    RunFollowsClaim(h, host, Not(e), m);
  }

  predicate Fails(o: Outcome) {
    o.Raised? || o.TypeErrorRaised?
  }

  /** With the default callbacks, `expect(v).<matcher>` throws exactly when
      its claim fails (or the host throws), and `expect(v).not.<matcher>`
      exactly when the claim holds (or the host throws). */
  lemma DefaultCallbacksThrowOnFailure(h: Heap, host: Host, v: Value, m: Matcher)
    requires Ready(h) && Valid(h, v) && Args(h, m)
    ensures Fails(Observe(h, host, Expect(v), m)) <==> Claim(h, host, v, m) != Some(true)
    ensures Fails(Observe(h, host, Not(Expect(v)), m)) <==> Claim(h, host, v, m) != Some(false)
  {
    RunFollowsClaim(h, host, Expect(v), m);
    RunFollowsClaim(h, host, Not(Expect(v)), m);
  }

  /** The error thrown for a failed assertion carries the matcher's message. */
  lemma DefaultFailureCarriesMessage(h: Heap, host: Host, e: Expectation, m: Matcher)
    requires Subject(h, e) && Args(h, m) && e.backend == DefaultBackend
    requires Run(h, host, e, m).Called?
    ensures Observe(h, host, e, m).Raised? ==> Observe(h, host, e, m).message == Run(h, host, e, m).message
    ensures Observe(h, host, e, m) == Returned || Observe(h, host, e, m).Raised?
  {
  }

  /** `expect(0).toBe(-0)` passes while `expect(0).toEqual(-0)` throws:
      `===` identifies the zeros, `eq` tells them apart. */
  lemma ZeroSameButNotEqual(h: Heap, host: Host)
    requires Ready(h)
    ensures Observe(h, host, Expect(Number(Zero(false))), Same(Number(Zero(true)), "")) == Returned
    ensures Observe(h, host, Expect(Number(Zero(false))), Equal(Number(Zero(true)), "")).Raised?
  {
  }

  /** `expect(null).not.toBeNull()` throws "expected null not to be null". */
  lemma NotToBeNullMessage(h: Heap, host: Host)
    requires Ready(h)
    ensures Observe(h, host, Not(Expect(Null)), IsNull(""))
         == Raised(Some("expected null not to be null"))
  {
    NullMessages(h, host);
  }

  /** `toThrow` on a subject that is not a function calls `fail` with "to be
      a function" and drops the custom message, so `expect(v).not.toThrow()`
      passes silently for any such `v`. */
  lemma ToThrowOnNonFunction(h: Heap, host: Host, v: Value, error: Value, b: Behaviour, customMsg: string)
    requires Ready(h) && Valid(h, v) && !v.Func? && Args(h, Throwing(error, b, customMsg))
    ensures Observe(h, host, Expect(v), Throwing(error, b, customMsg))
         == Raised(Some(GenerateMessage(h, host, v, "", "to be a function", Undefined, "")))
    ensures Observe(h, host, Not(Expect(v)), Throwing(error, b, customMsg)) == Returned
  {
  }

  /** The negated `toThrow` of a function that does throw calls `fail`
      with no message at all. */
  lemma NegatedToThrowHasNoMessage(h: Heap, host: Host, id: nat, name: string, thrown: Value, customMsg: string)
    requires Ready(h) && Valid(h, thrown) && Truthy(thrown)
    ensures Observe(h, host, Not(Expect(Func(id, name))), Throwing(Undefined, Throws(thrown), customMsg))
         == Raised(None)
  {
  }

  /** A function that throws an `Error` whose message differs from the
      expected one fails with "to throw" and the expected message. */
  lemma ToThrowWrongMessage(h: Heap, host: Host, id: nat, name: string, a: Addr, expected: string, customMsg: string)
    requires Ready(h) && a in h && h[a].PlainObj? && h[a].errorMessage.Some?
    requires expected != "" && h[a].errorMessage.value != expected
    ensures Observe(h, host, Expect(Func(id, name)), Throwing(Str(expected), Throws(Ref(a)), customMsg))
         == Raised(Some(GenerateMessage(h, host, Func(id, name), "", "to throw", Str(expected), customMsg)))
  {
  }

  /** A function that returns, or throws a falsy value, fails with "to
      throw an exception" and no argument, keeping the custom message. */
  lemma ToThrowNothingThrown(h: Heap, host: Host, id: nat, name: string, error: Value, b: Behaviour, customMsg: string)
    requires Ready(h) && Valid(h, error) && (b.Throws? ==> Valid(h, b.thrown) && !Truthy(b.thrown))
    ensures Observe(h, host, Expect(Func(id, name)), Throwing(error, b, customMsg))
         == Raised(Some(GenerateMessage(h, host, Func(id, name), "", "to throw an exception", Undefined, customMsg)))
  {
  }

  /** `toNotEqual(v)` does what `not.toEqual(v)` does. */
  lemma ToNotEqualIsNotToEqual(h: Heap, host: Host, e: Expectation, x: Value, customMsg: string)
    requires Subject(h, e) && Valid(h, x)
    ensures Run(h, host, e, NotEqual(x, customMsg)) == Run(h, host, Not(e), Equal(x, customMsg))
    ensures Observe(h, host, e, NotEqual(x, customMsg)) == Observe(h, host, Not(e), Equal(x, customMsg))
  {
  }
}

=== FILE: matchers.dfy ===
/** The matcher methods of `Expect.prototype` as one datatype, the dispatch
    that runs them, and, independently of how the matchers compute it, the
    claim each one checks. */
module Matchers {
  import opened JsValues
  import opened Equality
  import opened Formatting
  import opened Expectations

  /** One call of a matcher, with its arguments. `customMsg` is "" when the
      caller gave none. */
  datatype Matcher =
    | Equal(expected: Value, customMsg: string)          // toEqual
    | NotEqual(expected: Value, customMsg: string)       // toNotEqual
    | Same(expected: Value, customMsg: string)           // toBe
    | IsTruthy(customMsg: string)                        // toBeTruthy
    | IsFalsy(customMsg: string)                         // toBeFalsy, toBeFalsey
    | Above(bound: Value, customMsg: string)             // toBeGreaterThan
    | Below(bound: Value, customMsg: string)             // toBeLessThan
    | Contains(item: Value, customMsg: string)           // toContain
    | IsDefined(customMsg: string)                       // toBeDefined
    | IsUndefined(customMsg: string)                     // toBeUndefined
    | IsNull(customMsg: string)                          // toBeNull
    | Throwing(error: Value, behaviour: Behaviour, customMsg: string)  // toThrow
    | PassNow                                            // pass
    | FailNow(why: string, what: Value, customMsg: string)  // fail

  /** Every value a matcher is handed lives in the heap. */
  predicate Args(h: Heap, m: Matcher) {
    match m
    case Equal(x, _) => Valid(h, x)
    case NotEqual(x, _) => Valid(h, x)
    case Same(x, _) => Valid(h, x)
    case Above(x, _) => Valid(h, x)
    case Below(x, _) => Valid(h, x)
    case Contains(x, _) => Valid(h, x)
    case Throwing(err, b, _) => Valid(h, err) && (b.Throws? ==> Valid(h, b.thrown))
    case FailNow(_, x, _) => Valid(h, x)
    case _ => true
  }

  /** The expectation whose callbacks the matcher ends up calling:
      `toNotEqual` runs on `e.not`. */
  function Target(e: Expectation, m: Matcher): Expectation {
    if m.NotEqual? then Not(e) else e
  }

  function Run(h: Heap, host: Host, e: Expectation, m: Matcher): Reaction
    requires Subject(h, e) && Args(h, m)
  {
    match m
    case Equal(x, c) => ToEqual(h, host, e, x, c)
    case NotEqual(x, c) => ToNotEqual(h, host, e, x, c)
    case Same(x, c) => ToBe(h, host, e, x, c)
    case IsTruthy(c) => ToBeTruthy(h, host, e, c)
    case IsFalsy(c) => ToBeFalsy(h, host, e, c)
    case Above(x, c) => ToBeGreaterThan(h, host, e, x, c)
    case Below(x, c) => ToBeLessThan(h, host, e, x, c)
    case Contains(x, c) => ToContain(h, host, e, x, c)
    case IsDefined(c) => ToBeDefined(h, host, e, c)
    case IsUndefined(c) => ToBeUndefined(h, host, e, c)
    case IsNull(c) => ToBeNull(h, host, e, c)
    case Throwing(err, b, c) => ToThrow(h, host, e, err, b, c)
    case PassNow => Pass()
    case FailNow(why, what, c) => Fail(h, host, e, why, what, c)
  }

  /** The handler the matcher invokes, when the host does not throw first. */
  function Invoked(h: Heap, host: Host, e: Expectation, m: Matcher): Handler
    requires Subject(h, e) && Args(h, m)
    requires Run(h, host, e, m).Called?
  {
    HandlerFor(Target(e, m), Run(h, host, e, m).callback)
  }

  /** What the caller of the matcher observes. */
  function Observe(h: Heap, host: Host, e: Expectation, m: Matcher): Outcome
    requires Subject(h, e) && Args(h, m)
  {
    Perform(Target(e, m), Run(h, host, e, m))
  }

  /** `t` occurs in `s` starting at position `i`. */
  predicate OccursAt(s: string, t: string, i: nat) {
    i + |t| <= |s| && s[i..i + |t|] == t
  }

  ghost predicate HasSubstring(s: string, t: string) {
    exists i :: OccursAt(s, t, i)
  }

  /** A string contains `x`: its text occurs as a substring, or one of its
      characters is `eq` to `x`. */
  ghost predicate StringContains(h: Heap, host: Host, s: string, x: Value)
    requires WfHeap(h) && Valid(h, x)
  {
    || HasSubstring(s, ToStringValue(h, host, x))
    || exists i :: 0 <= i < |s| && Eq(h, Str([s[i]]), x, [])
  }

  /** An array contains `x`: a present element is `===` to it, or some
      element (holes read as `undefined`) is `eq` to it. */
  ghost predicate ArrayContains(h: Heap, a: Addr, x: Value)
    requires WfHeap(h) && a in h && h[a].ArrayObj? && Valid(h, x)
  {
    || (exists j :: 0 <= j < h[a].length && HasIndex(h[a], j) && StrictEq(Elem(h[a], j), x))
    || (exists j :: 0 <= j < h[a].length && Eq(h, ElemAt(h, a, j), x, []))
  }

  /** What `toContain` claims about a searchable subject. */
  ghost predicate Contained(h: Heap, host: Host, v: Value, x: Value)
    requires Ready(h) && Valid(h, v) && Valid(h, x)
  {
    if v.Str? then StringContains(h, host, v.s, x)
    else if v.Ref? && h[v.addr].StringObj? then StringContains(h, host, h[v.addr].s, x)
    else if v.Ref? && h[v.addr].ArrayObj? then ArrayContains(h, v.addr, x)
    else false
  }

  /** The claim the un-negated assertion makes about subject `v`, or None
      when the host throws before any claim is decided. */
  ghost function Claim(h: Heap, host: Host, v: Value, m: Matcher): Option<bool>
    requires Ready(h) && Valid(h, v) && Args(h, m)
  {
    match m
    case Equal(x, _) => Some(Eq(h, v, x, []))
    case NotEqual(x, _) => Some(!Eq(h, v, x, []))
    case Same(x, _) => Some(StrictEq(v, x))
    case IsTruthy(_) => Some(Truthy(v))
    case IsFalsy(_) => Some(!Truthy(v))
    case Above(x, _) => Some(Less(host, x, v))
    case Below(x, _) => Some(Less(host, v, x))
    case Contains(x, _) => if Searchable(h, v) then Some(Contained(h, host, v, x)) else None
    case IsDefined(_) => Some(v != Undefined)
    case IsUndefined(_) => Some(v == Undefined)
    case IsNull(_) => Some(v == Null)
    case Throwing(err, b, _) =>
      var expected := ExpectedMessage(h, err);
      Some(v.Func? && b.Throws? && Truthy(b.thrown)
           && (Truthy(expected) ==> StrictEq(MessageOf(h, b.thrown), expected)))
    case PassNow => Some(true)
    case FailNow(_, _, _) => Some(false)
  }
}

=== FILE: messages.dfy ===
/** `generateMessage`: "expected <value> <expr><toDo> <otherVal>", with pairs
    of whitespace collapsed, one whitespace character trimmed from each end,
    and an optional "<customMsg>: " prefix. */
module Messages {
  import opened JsValues
  import opened Formatting

  /** The `\s` class of JavaScript regular expressions. */
  predicate IsSpace(c: char) {
    || c == ' ' || c == '\t' || c == '\n' || c == '\U{000B}' || c == '\U{000C}' || c == '\r'
    || c == '\U{00A0}' || c == '\U{1680}' || ('\U{2000}' <= c <= '\U{200A}')
    || c == '\U{2028}' || c == '\U{2029}' || c == '\U{202F}' || c == '\U{205F}'
    || c == '\U{3000}' || c == '\U{FEFF}'
  }

  /** `s.replace(/\s\s/g, ' ')`: scanning left to right, each pair of
      whitespace characters becomes one space and the scan resumes after it. */
  function CollapsePairs(s: string): string
    decreases |s|
  {
    if |s| >= 2 && IsSpace(s[0]) && IsSpace(s[1]) then " " + CollapsePairs(s[2..])
    else if |s| == 0 then ""
    else [s[0]] + CollapsePairs(s[1..])
  }

  /** `s.replace(/(^\s|\s$)/g, '')`: at most one whitespace character goes
      from the front and at most one from the back. */
  function TrimEnds(s: string): string {
    var start := if |s| > 0 && IsSpace(s[0]) then 1 else 0;
    var end := if |s| > start && IsSpace(s[|s| - 1]) then |s| - 1 else |s|;
    s[start..end]
  }

  /** The message built from the two rendered values. */
  function Compose(valueText: string, expr: string, toDo: string, otherText: string, customMsg: string): string {
    var message := TrimEnds(CollapsePairs("expected " + valueText + " " + expr + toDo + " " + otherText));
    if customMsg != "" then customMsg + ": " + message else message
  }

  function GenerateMessage(h: Heap, host: Host, value: Value, expr: string, toDo: string,
                           otherVal: Value, customMsg: string): string
    requires Ready(h) && Valid(h, value) && Valid(h, otherVal)
  {
    Compose(FormatValue(h, host, value, false), expr, toDo, FormatValue(h, host, otherVal, true), customMsg)
  }
}

=== FILE: messages_laws.dfy ===
/** What the message normalisation does and does not do, and the shape of
    the messages the matchers produce. */
module MessagesLaws {
  import opened JsValues
  import opened Formatting
  import opened Messages
  import opened FormattingLaws

  predicate NoDoubleSpace(s: string) {
    forall i :: 0 <= i < |s| - 1 ==> !(IsSpace(s[i]) && IsSpace(s[i + 1]))
  }

  /** The characters of `s` that are not whitespace, in order. */
  function Visible(s: string): string {
    if |s| == 0 then "" else (if IsSpace(s[0]) then "" else [s[0]]) + Visible(s[1..])
  }

  lemma {:induction false} CollapseShrinks(s: string)
    ensures |CollapsePairs(s)| <= |s|
    ensures !NoDoubleSpace(s) ==> |CollapsePairs(s)| < |s|
    decreases |s|
  {
    if |s| >= 2 && IsSpace(s[0]) && IsSpace(s[1]) {
      CollapseShrinks(s[2..]);
    } else if |s| > 0 {
      CollapseShrinks(s[1..]);
      if !NoDoubleSpace(s) {
        var i :| 0 <= i < |s| - 1 && IsSpace(s[i]) && IsSpace(s[i + 1]);
        assert i > 0;
        assert IsSpace(s[1..][i - 1]) && IsSpace(s[1..][i]);
      }
    }
  }

  /** Collapsing changes a string exactly when it holds two adjacent
      whitespace characters. */
  lemma {:induction false} CollapseIdentity(s: string)
    ensures CollapsePairs(s) == s <==> NoDoubleSpace(s)
    decreases |s|
  {
    CollapseShrinks(s);
    if NoDoubleSpace(s) && |s| > 0 {
      assert NoDoubleSpace(s[1..]) by {
        forall i | 0 <= i < |s[1..]| - 1
          ensures !(IsSpace(s[1..][i]) && IsSpace(s[1..][i + 1]))
        {
          assert s[1..][i] == s[i + 1] && s[1..][i + 1] == s[i + 2];
        }
      }
      CollapseIdentity(s[1..]);
      assert !(|s| >= 2 && IsSpace(s[0]) && IsSpace(s[1]));
      assert [s[0]] + s[1..] == s;
    }
  }

  lemma VisibleConcat(a: string, b: string)
    ensures Visible(a + b) == Visible(a) + Visible(b)
    decreases |a|
  {
    if |a| > 0 {
      assert (a + b)[1..] == a[1..] + b;
      VisibleConcat(a[1..], b);
    } else {
      assert a + b == b;
    }
  }

  /** Collapsing only ever drops whitespace: every other character survives
      in order. */
  lemma {:induction false} CollapseKeepsVisible(s: string)
    ensures Visible(CollapsePairs(s)) == Visible(s)
    decreases |s|
  {
    if |s| >= 2 && IsSpace(s[0]) && IsSpace(s[1]) {
      CollapseKeepsVisible(s[2..]);
      VisibleConcat(" ", CollapsePairs(s[2..]));
      assert Visible(s) == Visible(s[1..]);
      assert s[1..][1..] == s[2..];
      assert Visible(s[1..]) == Visible(s[2..]);
    } else if |s| > 0 {
      CollapseKeepsVisible(s[1..]);
      VisibleConcat([s[0]], CollapsePairs(s[1..]));
    }
  }

  /** Trimming leaves a string alone exactly when it neither starts nor ends
      with whitespace, and removes at most one character from each end. */
  lemma TrimEndsIdentity(s: string)
    ensures TrimEnds(s) == s <==> (|s| == 0 || (!IsSpace(s[0]) && !IsSpace(s[|s| - 1])))
    ensures |s| - 2 <= |TrimEnds(s)| <= |s|
  {
  }

  /** A non-empty piece without whitespace at either end or two in a row. */
  predicate Clean(t: string) {
    |t| > 0 && !IsSpace(t[0]) && !IsSpace(t[|t| - 1]) && NoDoubleSpace(t)
  }

  lemma NoDoubleSpaceConcat(a: string, b: string)
    requires NoDoubleSpace(a) && NoDoubleSpace(b)
    requires |a| == 0 || |b| == 0 || !IsSpace(a[|a| - 1]) || !IsSpace(b[0])
    ensures NoDoubleSpace(a + b)
  {
    var s := a + b;
    forall i | 0 <= i < |s| - 1
      ensures !(IsSpace(s[i]) && IsSpace(s[i + 1]))
    {
      if i + 1 < |a| {
        assert s[i] == a[i] && s[i + 1] == a[i + 1];
      } else if i >= |a| {
        assert s[i] == b[i - |a|] && s[i + 1] == b[i + 1 - |a|];
      }
    }
  }

  predicate IsExpr(expr: string) {
    expr == "" || expr == "not "
  }

  /** The clean sentence the normalisation leaves untouched. */
  function Sentence(value: string, expr: string, toDo: string, other: string): string {
    var head := "expected " + value + " " + expr + toDo;
    if other == "" then head else head + " " + other
  }

  lemma RawHasNoDoubleSpace(value: string, expr: string, toDo: string, other: string)
    requires Clean(value) && Clean(toDo) && IsExpr(expr) && (other == "" || Clean(other))
    ensures NoDoubleSpace("expected " + value + " " + expr + toDo + " " + other)
  {
    var p1 := "expected " + value;
    assert NoDoubleSpace("expected ");
    NoDoubleSpaceConcat("expected ", value);
    var p2 := p1 + " ";
    NoDoubleSpaceConcat(p1, " ");
    var p3 := p2 + expr;
    assert NoDoubleSpace(expr);
    NoDoubleSpaceConcat(p2, expr);
    var p4 := p3 + toDo;
    NoDoubleSpaceConcat(p3, toDo);
    NoDoubleSpaceConcat(p4, " ");
    NoDoubleSpaceConcat(p4 + " ", other);
  }

  /** A string without double whitespace that starts with a visible
      character survives normalisation except for one trailing whitespace. */
  lemma NormaliseClean(raw: string)
    requires NoDoubleSpace(raw) && |raw| > 0 && !IsSpace(raw[0])
    ensures TrimEnds(CollapsePairs(raw)) == if IsSpace(raw[|raw| - 1]) then raw[..|raw| - 1] else raw
  {
    CollapseIdentity(raw);
  }

  /** When the rendered subject, the action phrase and the rendered argument
      are clean, the message is the plain sentence: with no argument the
      trailing space is trimmed, and a non-empty custom message becomes a
      "<customMsg>: " prefix. */
  lemma ComposeForm(v: string, expr: string, toDo: string, o: string, customMsg: string)
    requires IsExpr(expr) && Clean(toDo) && Clean(v) && (o == "" || Clean(o))
    ensures Compose(v, expr, toDo, o, customMsg)
         == if customMsg == "" then Sentence(v, expr, toDo, o) else customMsg + ": " + Sentence(v, expr, toDo, o)
  {
    var head := "expected " + v + " " + expr + toDo;
    var raw := head + " " + o;
    assert TrimEnds(CollapsePairs(raw)) == Sentence(v, expr, toDo, o) by {
      RawHasNoDoubleSpace(v, expr, toDo, o);
      assert raw[0] == 'e';
      NormaliseClean(raw);
      if o == "" {
        assert raw == head + " ";
        assert raw[..|raw| - 1] == head;
      } else {
        assert raw[|raw| - 1] == o[|o| - 1];
      }
    }
  }

  lemma NullPiecesClean()
    ensures Clean("null") && Clean("to be null")
  {
    assert NoDoubleSpace("to be null");
    assert NoDoubleSpace("null");
  }

  /** The two sentences `toBeNull` composes about a `null` subject. */
  lemma NullSentences()
    ensures Compose("null", "", "to be null", "", "") == "expected null to be null"
    ensures Compose("null", "not ", "to be null", "", "") == "expected null not to be null"
  {
    NullPiecesClean();
    ComposeForm("null", "", "to be null", "", "");
    assert Sentence("null", "", "to be null", "") == "expected null to be null";
    ComposeForm("null", "not ", "to be null", "", "");
    assert Sentence("null", "not ", "to be null", "") == "expected null not to be null";
  }

  /** `expect(null).toBeNull()` and its negation, word for word. */
  lemma NullMessages(h: Heap, host: Host)
    requires Ready(h)
    ensures GenerateMessage(h, host, Null, "", "to be null", Undefined, "") == "expected null to be null"
    ensures GenerateMessage(h, host, Null, "not ", "to be null", Undefined, "") == "expected null not to be null"
  {
    FormatPrimitives(h, host, Null, false, []);
    FormatPrimitives(h, host, Undefined, true, []);
    NullSentences();
  }
}
